=== FILE: README.md ===
# typeorm-autofixtures in Dafny

A model of the fixture engine of `typeorm-autofixtures`. Given TypeORM entity metadata,
the engine builds valid, persisted entity instances for tests. `create(type, overrides)`
does the following:

- fills every required scalar column with a type-appropriate default, and copies the
  caller's overrides on;
- records the instance in a per-run context and saves it early when every required
  column has a value;
- resolves the instance's relations in the fixed order one-to-one, many-to-one,
  one-to-many, many-to-many. Each relation kind follows its own policy for using an
  override, skipping, reusing the most recent instance of the target type, or creating
  a target recursively;
- saves the instance once more at the end.

Free-text defaults carry a suffix meant to keep them unique:

- a process-wide counter in base 36 for ordinary columns;
- a random 8-character hexadecimal identifier for columns under a single-column unique
  constraint or index.

The prefix is trimmed so that the value fits the column's declared length.

The model is made of pure functions over immutable values:

| file | module | contents |
|---|---|---|
| `results.dfy` | `Results` | `Option`, the engine's error taxonomy, and a `Result` usable with `:-` |
| `text.dfy` | `Text` | the string operations the engine relies on: `toString(radix)` and its inverse, `String.prototype.includes`, ASCII case mapping, `trim`, the decimal subset of `Number()`, `slice` and `substring` |
| `values.dfy` | `Js` | JavaScript values and a heap of entity objects and arrays; arrays live on the heap so aliasing is the same as in JavaScript. Property reads and writes in strict mode, `push`, `includes`, and `for … of` |
| `metadata.dfy` | `Metadata` | column, relation and entity descriptors, and the data source's catalog (`getMetadata`, `hasMetadata`) |
| `fixture_context.dfy` | `FixtureContext` | `TypeRegistry` and `FixtureContext` |
| `context_cache.dfy` | `ContextCache` | the engine's `context` and `contextHistory` maps |
| `relation_helper.dfy` | `RelationHelper` | `FixtureRelationHelper` |
| `defaults.dfy` | `Defaults` | `defaultForColumn`, `getMaxLengthForColumn`, `isUniqueColumn` |
| `engine.dfy` | `Engine` | the scalar pass, the overrides, the required test, the four relation passes, `createInternal`, `create`, `createMany` and the resets |

Where the library's documentation and its code differ, the model follows the
code:

- **Many-to-many without an override.** The documentation says such a relation is left
  unset. The code reuses the most recent context instance of the target type, links
  both sides and saves the target (`src/fixture.ts:285-296`).
- **Many-to-many with an override.** The documentation says the override is appended onto
  the instance's own property and that every target's inverse array receives the
  instance. In the code:
  - the override is assigned as it is;
  - the instance is pushed onto a target's inverse array only on the owning side;
  - `addThisInstanceToTheTargetSideArray` is then called with the override collection
    itself. That hangs an array holding the instance on a property of the collection
    object (`src/fixture.ts:267-283`). The heap model keeps arrays as objects so that
    this is represented faithfully.
- **Free text with a declared length of zero or less.** Here the model deliberately
  departs from the code. The code keeps a suffix that does not fit with `slice(-max)`,
  which for a bound of 0 keeps the whole suffix. The engine in this model uses the
  corrected tail, which keeps no characters then. `Defaults.AttachAgreesForPositiveLength`
  proves that the two agree for every positive bound. Both versions are in "## Findings".
- **Creation index.** The documentation has the per-type creation index start at 1.
  `getIndex` does initialise it to 1 when a free-text default is made before any
  instance of the type was recorded. `addToContext` then raises it to 2, so the first
  recorded instance of such a type already counts as 2.

## Model

| member | source | states |
|---|---|---|
| `Metadata.GetMetadata` | src/fixture.ts:27 | the catalog lookup succeeds exactly for a registered type, and otherwise fails with that type's name |
| `Text.Radix` | src/fixture.ts:148 | `toString(radix)` of a number is never empty |
| `Text.ParseRadixInvertsRadix` | src/fixture.ts:148 | the digits `toString(radix)` writes read back to the same number |
| `Text.RadixInjective` | src/fixture.ts:148 | different counter values give different base-36 texts |
| `Text.ContainsIffOccurs` | src/fixture.ts:117-118 | the substring test used on type names holds exactly when the name occurs at some position |
| `Text.ContainsAny` | src/fixture.ts:117-126 | a family of type names matches exactly when one of its names occurs |
| `Text.Lower` | src/fixture.ts:115 | lower-casing keeps the length of the type name |
| `Text.JsNumberOfDecimal` | src/fixture.ts:159-160 | `Number()` reads a decimal length back as that number |
| `Text.SliceFrom` | src/fixture.ts:137 | `slice(start)` returns a tail of the string, no longer than it |
| `Text.Head` | src/fixture.ts:140 | `substring(0, end)` returns the first `end` characters, clamped to the string |
| `Js.GetProp` | src/fixture.ts:271 | reading a property throws exactly on `undefined` and `null`, and gives the stored value of an object |
| `Js.SetProp` | src/fixture.ts:272 | assigning a property succeeds exactly on a heap object (an entity or array reference), and changes only that property |
| `Js.Push` | src/fixture.ts:276 | `push` succeeds exactly on an array, and appends to that array only |
| `Js.Includes` | src/fixture.ts:275 | `includes` succeeds exactly on an array, and holds exactly when the value is an element |
| `Js.Elements` | src/fixture.ts:270 | `for … of` visits an array's elements or a string's characters, and throws on anything else |
| `FixtureContext.Set` | src/fixture-context.ts:26-28 | after `set`, `get` of the key returns the instances and every other key is unchanged |
| `FixtureContext.GetOrCreate` | src/fixture-context.ts:34-42 | an existing sequence is returned with the registry unchanged; otherwise the factory's result is stored and returned |
| `FixtureContext.GetOrCreateIgnoresFactory` | src/fixture-context.ts:34-42 | for a present key the factory makes no difference |
| `FixtureContext.MergeEntryAppends` | src/fixture-context.ts:45-48 | one merge step appends the other sequence under its key and leaves other keys alone |
| `FixtureContext.MergeIsAppended` | src/fixture-context.ts:44-49 | merging in any key order equals the key-wise concatenation of both registries |
| `FixtureContext.MergeEntry` | src/fixture-context.ts:45-48 | one step of `merge`: the key's stored sequence, read as empty when absent, gains the other's sequence at its end, and every other key reads as before |
| `FixtureContext.Merge` | src/fixture-context.ts:44-49 | the merged registry has exactly the keys of both registries; its contents are stated by `FixtureContext.MergeIsAppended` |
| `FixtureContext.MergeAppends` | src/fixture-context.ts:44-49 | after `merge`, the keys are the union, each key of the other registry holds the old sequence followed by the other's, and other keys are unchanged |
| `FixtureContext.MergeEmpty` | src/fixture-context.ts:44-49 | merging an empty registry changes nothing |
| `FixtureContext.SetThenGet` | src/fixture-context.ts:26-32 | a sequence stored with `set` is read back by `get` and counted by its length |
| `FixtureContext.GetLast` | src/fixture-context.ts:6-9 | `getLast` is defined exactly when the type has instances, and is the last one recorded |
| `FixtureContext.Count` | src/fixture-context.ts:11-14 | `count` is 0 for an unknown type and otherwise the number of recorded instances |
| `FixtureContext.MergeContext` | src/fixture-context.ts:16-18 | after merging contexts, counts add up, and `getLast` comes from the other context wherever it has instances |
| `FixtureContext.MergeEmptyKeepsCounts` | src/fixture-context.ts:16-18 | merging an empty context keeps every count |
| `ContextCache.AddToContext` | src/fixture.ts:317-329 | the instance is appended to its type's sequence, and the type's creation index goes up by one from 0; other types are unchanged |
| `ContextCache.GetFromContext` | src/fixture.ts:331-337 | the result is absent exactly when the type has no instances, and is otherwise the last recorded one; no recorded sequence changes |
| `ContextCache.GetIndex` | src/fixture.ts:339-344 | an existing creation index is returned unchanged; a missing one becomes and returns 1 |
| `ContextCache.ResetContext` | src/fixture.ts:349-352 | after a reset no type has instances, and the creation indexes are kept |
| `ContextCache.ResetHistory` | src/fixture.ts:354-357 | after a reset every creation index is 0, and the instances are kept |
| `ContextCache.AddThenGetReturnsInstance` | src/fixture.ts:317-337 | the lookup right after recording an instance returns that instance |
| `ContextCache.ResetForgetsReuse` | src/fixture.ts:349-352 | after `resetContext`, nothing is reused and `getIndex` answers as before |
| `RelationHelper.NewHelper` | src/fixture-relation.helper.ts:16-29 | each helper field is read off the relation. The target property is the inverse relation's property when one exists, else the inverse side path. The provided value is the override under the relation's own property name |
| `RelationHelper.UserProvidedValueIffSet` | src/fixture-relation.helper.ts:35-37 | an override counts as provided exactly when it exists and is not `undefined`, so `null` counts |
| `RelationHelper.SetInstanceProperty` | src/fixture-relation.helper.ts:39-41 | only the instance's relation property changes, and it takes the value |
| `RelationHelper.AddValueToInstanceArray` | src/fixture-relation.helper.ts:43-48 | the call succeeds exactly when the property is falsy or an array. The array then ends with the value after its old elements, or is a fresh one-element array. Every other object is unchanged |
| `RelationHelper.AddThisInstanceToTheTargetSideArray` | src/fixture-relation.helper.ts:50-57 | with no target property nothing happens. Otherwise the call succeeds exactly on an object whose inverse property is falsy or an array, and that array ends with the instance |
| `RelationHelper.TargetSideAppendRepeats` | src/fixture-relation.helper.ts:50-57 | there is no duplicate check: an instance already on the inverse array appears once more |
| `RelationHelper.UpperKindName` | src/fixture-relation.helper.ts:60 | the upper-cased relation types are `ONE-TO-ONE`, `MANY-TO-ONE`, `ONE-TO-MANY` and `MANY-TO-MANY` |
| `RelationHelper.GetLogMessage` | src/fixture-relation.helper.ts:59-63 | the log line ends with `": "` and the suffix; `RelationHelper.LogMessageRoundTrip` states that the relation type can be read back from its head |
| `RelationHelper.LogMessageRoundTrip` | src/fixture-relation.helper.ts:59-63 | a log line starts with the relation type, which can be read back from it, and ends with `: ` and the suffix |
| `Defaults.SomeSingleUnique` | src/fixture.ts:169-171 | true exactly when some unique constraint consists of just this property |
| `Defaults.SomeSingleUniqueIndex` | src/fixture.ts:175-177 | true exactly when some unique index consists of just this property |
| `Defaults.IsUniqueColumn` | src/fixture.ts:165-179 | never true for a primary column; otherwise true exactly when a single-column unique constraint or unique index covers the column |
| `Defaults.ContainsAnyIffMentions` | src/fixture.ts:117-126 | a family of type names matches exactly when one of its names occurs, at some position, in the type name |
| `Defaults.MaxLengthOfDecimal` | src/fixture.ts:157-163 | a declared decimal length is the bound |
| `Defaults.MaxLength` | src/fixture.ts:157-163 | the bound is either 255 or the number a non-empty declared length reads as; `Defaults.MaxLengthOfDecimal` and `Defaults.MaxLengthFallsBack` pin down which |
| `Defaults.MaxLengthFallsBack` | src/fixture.ts:157-163 | with no length, an empty one or one that is not a number, the bound is 255 |
| `Defaults.Tail` | src/fixture.ts:149-150 | the kept suffix is exactly the last `max` characters, and empty when `max` is not positive |
| `Defaults.TailAsWrittenAgreesForPositiveMax` | src/fixture.ts:136-137 | for a positive bound, `slice(-max)` keeps the last `max` characters |
| `Defaults.TailAsWrittenIgnoresZeroMax` | src/fixture.ts:149-150 | for a zero bound, `slice(-0)` keeps the whole suffix |
| `Defaults.ZeroLengthColumnOverflows` | src/fixture.ts:136-137 | a column declared with length "0" gets a 9-character value as written, and an empty one after the correction |
| `Defaults.Attach` | src/fixture.ts:136-141 | the value never exceeds the bound. A suffix that does not fit is cut to its tail without reading the creation index. Otherwise the cut prefix `{property}{index}` is followed by the whole suffix |
| `Defaults.AttachAgreesForPositiveLength` | src/fixture.ts:136-152 | for every positive declared bound, the corrected free-text value equals the value the code computes with `slice(-max)` |
| `Defaults.AttachAsWritten` | src/fixture.ts:136-141 | the value as the code computes it: a suffix that does not fit is replaced by one of its own tails and the creation index is not read; for a positive bound the value fits. For a bound of 0 see `Defaults.ZeroLengthColumnOverflows` |
| `Defaults.TextDefault` | src/fixture.ts:132-154 | a free-text value fits the bound. A unique column draws one random identifier and leaves the counter alone; any other column advances the counter by one |
| `Defaults.DefaultForColumn` | src/fixture.ts:106-155 | the counter advances by at most one, and only for a string; the recorded instances never change |
| `Defaults.DefaultForColumnFitsCategory` | src/fixture.ts:106-130 | the value is the one the column's category calls for, with categories tested in order: constructor type → `null`, static default → it, then numeric → 0, boolean → false, temporal → epoch, JSON → `{}`, uuid → `undefined`, enum → first value. Only free text touches the counter, the random draws or the context |
| `Defaults.CounterTextShape` | src/fixture.ts:144-154 | an ordinary free-text value is the cut prefix followed by `-` and the new counter in base 36 when that fits. Otherwise, for a positive bound, it is that suffix as `slice(-max)` keeps it; with no positive bound it is empty |
| `Defaults.UniqueTextShape` | src/fixture.ts:134-142 | a unique free-text value is the cut prefix followed by `-` and 8 hexadecimal characters when that fits. Otherwise, for a positive bound, it is that suffix as `slice(-max)` keeps it, without reading the creation index; with no positive bound it is empty. The counter is unchanged |
| `Defaults.CounterTextsDiffer` | src/fixture.ts:144-154 | two ordinary free-text values made at different counter values differ whenever their suffixes fit, whatever their columns |
| `Engine.Save` | src/fixture.ts:41 | `repository.save` appends the saved value to the end of the save log and changes nothing else in the fixture |
| `Engine.UsedInRelation` | src/fixture.ts:95-99 | a database name is used in a relation exactly when it is one of some relation's join column aliases |
| `Engine.ScalarColumn` | src/fixture.ts:77-102 | a provided value is assigned. A column left to the database (increment, nullable, relation, create/update date, version, join column) is untouched. Any other column gets a default that fits its type. No other property changes |
| `Engine.ScalarColumns` | src/fixture.ts:75-104 | the scalar pass changes only properties that name a column of the entity, touches only the instance, and saves nothing |
| `Engine.ScalarColumnsFollowRules` | src/fixture.ts:75-104 | with distinct property names, after the pass every column holds its provided value, its previous value, or a fitting default, as its rules say |
| `Engine.AssignProvided` | src/fixture.ts:185-198 | every column or relation property with a provided value other than `undefined` takes it, and every other property keeps its value |
| `Engine.AllRequiredColumnsAreSet` | src/fixture.ts:60-73 | true exactly when every column that is neither increment-generated nor nullable holds something other than `undefined` or `null` |
| `Engine.UuidColumnDefersSave` | src/fixture.ts:30-35 | a required uuid column with no override stays unset after the scalar pass and the overrides, so nothing is saved before the relations are handled |
| `Engine.Prepare` | src/fixture.ts:27-35 | the new instance is a fresh entity object of the type, appended to the type's context sequence. Every provided column or relation value is on it. It is saved exactly when, with the overrides in place, every required column is set |
| `Engine.Record` | src/fixture.ts:31-35 | the overrides are assigned, the instance is appended to its context sequence, and it is saved exactly when every required column is then set |
| `Engine.RelationPasses` | src/fixture.ts:36-43 | after the relation passes, the last save is of the instance |
| `Engine.Build` | src/fixture.ts:27-43 | once the metadata is found, the instance is the first address past the old heap, an entity of the type, recorded in the context and saved after everything before it |
| `Engine.CreateInternal` | src/fixture.ts:26-44 | an unregistered type fails with its name. On success the instance is a fresh entity of the type, recorded in the context and saved last. The catalog is kept, counters only grow, the context and the save log only grow, and no object changes between entity and array |
| `Engine.OneToOneStep` | src/fixture.ts:202-225 | a one-to-one step keeps the engine's invariants |
| `Engine.OneToOnePass` | src/fixture.ts:200-227 | the one-to-one pass keeps the engine's invariants |
| `Engine.OneToOnePolicy` | src/fixture.ts:202-225 | an override is assigned without creating anything. A nullable relation or an unknown target type changes nothing. Otherwise a new target instance is created and assigned |
| `Engine.OneToOnePassSkipsOwned` | src/fixture.ts:200-227 | the one-to-one pass is the one-to-one step applied, in declared order, to exactly the one-to-one relations the entity does not own, so an owned relation is never handled |
| `Engine.NonOwnedOneToOnes` | src/fixture.ts:201 | a relation is selected exactly when it is one-to-one and not owned by this side |
| `Engine.ManyToOneStep` | src/fixture.ts:231-259 | a many-to-one step keeps the engine's invariants |
| `Engine.CreateTarget` | src/fixture.ts:252-259 | the array holding the instance is allocated first, and it still starts with the instance afterwards. The target is built right after it, and the relation property refers to the new target |
| `Engine.ManyToOnePass` | src/fixture.ts:229-261 | the many-to-one pass keeps the engine's invariants |
| `Engine.ManyToOneUsesProvided` | src/fixture.ts:233-238 | an override is assigned, and this instance ends the inverse array of the provided target when the relation has an inverse property. No entity is created (only arrays may be), nothing is saved, and the context is not consulted |
| `Engine.ManyToOneSkipsOrReuses` | src/fixture.ts:240-250 | without an override, a nullable relation changes nothing. Otherwise the last context instance of the target type is reused without allocating. With none and an unknown type, the heap, save log, counter and every recorded context sequence stay as they were |
| `Engine.ManyToOneCreatesTarget` | src/fixture.ts:252-259 | with nothing to reuse and a known type, an array starting with the instance and then a new target are allocated, and the target is assigned and recorded |
| `Engine.ManyToOneNullOverrideThrows` | src/fixture.ts:233-236 | an explicit `null` override of a many-to-one relation with an inverse property throws a TypeError |
| `Engine.ResetForcesNewTarget` | src/fixture.ts:245-259 | after `resetContext`, a required many-to-one relation creates a new target instead of reusing one |
| `Engine.OneToManyStep` | src/fixture.ts:302-315 | an override is assigned and the instance saved; without one nothing changes; nothing is allocated |
| `Engine.OneToManyPass` | src/fixture.ts:302-315 | the one-to-many pass never fails, allocates nothing and leaves the context alone |
| `Engine.EnsureArrayAt` | src/fixture.ts:271-273 | a falsy inverse property is replaced by a fresh array, and a truthy one is kept. On a primitive the assignment throws |
| `Engine.LinkProvided` | src/fixture.ts:270-280 | linking a provided collection creates only arrays, leaves counters and context alone, and saves nothing on the non-owning side |
| `Engine.LinkElement` | src/fixture.ts:270-278 | one turn of the loop over a provided collection: only arrays are created, counters and context are untouched, only the element's inverse property may be written, and nothing is saved on the non-owning side. The owning side is stated by `Engine.LinkOwnedElement` and `Engine.LinkElementSaves` |
| `Engine.LinkOwnedElement` | src/fixture.ts:271-278 | on the owning side an element ends up with the instance on its inverse array. It is saved exactly when the instance was not there yet. A truthy non-array property throws |
| `Engine.LinkElementKeepsLinked` | src/fixture.ts:270-278 | linking one element never takes the instance off another element's inverse array: arrays only grow, and a fresh array goes only on the element whose property was falsy |
| `Engine.LinkProvidedKeepsLinked` | src/fixture.ts:269-280 | an element that already has the instance on its inverse array keeps it for the rest of the loop |
| `Engine.LinkProvidedLinksEvery` | src/fixture.ts:269-280 | on the owning side, once the loop over a collection of entity references succeeds, every element, however many there are, has the instance on its inverse array |
| `Engine.LinkElementSaves` | src/fixture.ts:273-278 | one element saves nothing or saves itself, and then is linked. An element already linked is not saved |
| `Engine.LinkedNeverSavedAgain` | src/fixture.ts:269-280 | an element already linked is not saved by any later turn of the loop |
| `Engine.LinkProvidedSavesOnce` | src/fixture.ts:269-280 | on the owning side the loop saves only elements of the collection, each linked to the instance, and never the same element twice, even if the collection repeats it. How many copies of the instance an element's inverse array holds is not stated |
| `Engine.ManyToManyProvided` | src/fixture.ts:267-283 | the instance's property becomes the provided collection when the inverse property has another name. When there is an inverse property, the collection object's inverse array ends with the instance. No entity is created and the context is left alone |
| `Engine.ManyToManyReuse` | src/fixture.ts:286-295 | the reuse branch creates no entity and leaves the context alone |
| `Engine.ManyToManyReuseGuard` | src/fixture.ts:286-295 | a target already on the instance's array is not linked again. Otherwise, on success, it is saved once and ends the instance's array. A truthy non-array property throws |
| `Engine.ManyToManyStep` | src/fixture.ts:265-298 | a many-to-many step creates no entity and only looks the target type up in the context |
| `Engine.ManyToManyPass` | src/fixture.ts:263-300 | the many-to-many pass creates no entity and allocates only arrays |
| `Engine.CollectionPassesCreateNoEntity` | src/fixture.ts:302-315 | the one-to-many and many-to-many passes together leave the counter, the draws and the context's instances unchanged, and allocate only arrays |
| `Engine.Create` | src/fixture.ts:18-24 | an unregistered type fails with its name before anything else. On success the instance is fresh, of the type, recorded, and saved twice in a row at the end |
| `Engine.CreateMany` | src/fixture.ts:52-58 | exactly `max(0, times)` instances, all fresh, of the type, and in increasing order of allocation |
| `Engine.CreatedInOrder` | src/fixture.ts:52-58 | one created instance followed by later ones created after it are all fresh and in increasing order of allocation |
| `Engine.ResetContext` | src/fixture.ts:349-352 | no instance is reused afterwards, and nothing else changes |
| `Engine.ResetDataSource` | src/fixture.ts:364-370 | the catalog is replaced, and the context and creation indexes are emptied. The process-wide counter, the heap and the save log carry on |

## Left out

- Asynchrony: every `await` is modelled as a call that has finished before the next statement runs.
- `save`: it is reduced to a log of the values saved. Primary keys, generated columns, cascades and database constraint errors are not modelled, so a save never fails.
- Logging (`log`, `logInstanceCreated`, `IsLogEnabled`): only the text of `getLogMessage` is modelled.
- Random identifiers: `randomUUID` becomes a parameter function from the number of draws to eight lower-case hexadecimal characters, so nothing is assumed about its distribution.
- Entity types are identified by name. `Object.create(prototype)` becomes a fresh heap object tagged with the type name.
- `new Date(0)` and `{}` are only the tags `EpochDate` and `EmptyJson`; unlike the JavaScript objects they stand for, the tags do not accept property writes (`Js.SetProp` throws a TypeError on them).
- Numbers are integers. `Number()` is modelled for trimmed optional-sign decimal digits and for blank strings (read as 0); every other string reads as NaN. Fractions, exponents, hexadecimal and `Infinity` are left out.
- `Text.Lower` and `Text.Upper` map ASCII letters only.
- `Text.IsSpace` covers ASCII whitespace, the no-break space and the byte order mark, but not the other Unicode space separators.
- `Engine.CreateInternal`: the recursion is bounded by a fuel parameter and fails with `OutOfFuel` when the bound is reached. The library itself recurses without a bound, and does not terminate on a cycle of required one-to-one relations.
- `Engine.CreateMany`: a fractional or non-numeric `times` is not modelled.
- `Engine.ManyToManyReuse`: `includes` on a string-valued relation property throws in the model. JavaScript would search the string for the target's text form.
- `Engine.LinkProvided`: the elements of the provided collection are taken once, before the loop. JavaScript re-reads the length of a live array that the loop itself pushes onto.
- `Engine.LinkProvided`: `includes` and `push` on a string-valued inverse property are not distinguished from any other non-array.
- `Engine.ManyToOneUsesProvided`: states the assigned value only when the override is not the instance itself.
- `Defaults.TextDefault`: for a declared length of zero or less, a suffix that does not fit gives the empty string. The code's `slice(-max)` keeps the whole suffix for 0, and its last `-max` characters for a negative bound. See "## Findings".
- `Defaults.DefaultForColumn`: inherits the corrected free-text value of `Defaults.TextDefault` for a declared length of zero or less.
- `Defaults.DefaultForColumnFitsCategory`: its bound on free text holds of the corrected value. The code exceeds it for a declared length of zero or less.
- `Defaults.CounterTextShape`: for a declared length of zero or less it states the corrected empty value, not what `slice(-max)` returns.
- `Defaults.UniqueTextShape`: for a declared length of zero or less it states the corrected empty value, not what `slice(-max)` returns.
- `Engine.CreateInternal`: a failure carries no state. In the library, the effects made before a throw stay in place: the context entry, the counter, property writes, pushes and earlier saves. A later `create` can then reuse a half-built instance, which the model cannot express.
- `Engine.CreateTarget`: does not state that the new target's inverse property is the array. That holds only when the property is a column or relation of the target, and the target's own passes may reassign it.
- `Engine.OneToOnePolicy`: does not state that the created target's inverse property holds the instance. The instance is passed as the override of that property, but an override is assigned only when its name is a column or relation of the target (src/fixture.ts:185-198), and the target's own relation passes and the creations nested in them may write the property again.
- `Defaults.Attach`: lengths and cuts count Unicode code points, while JavaScript's `length` and `substring` count UTF-16 code units. A property name outside the Basic Multilingual Plane is therefore cut later than the code cuts it, and the bound holds in code points only.
- `Defaults.AttachAsWritten`: counts code points, not UTF-16 code units, like `Defaults.Attach`.
- `Text.Head`: `substring(0, end)` is modelled on code points, not UTF-16 code units, so it never splits a surrogate pair.
- `Engine.ManyToManyProvided`: when the inverse property has the relation's own name, linking may write the instance's property again, and the contract says nothing about its final value.
- `FixtureContext.GetOrCreate`: sequences are values. In the library, `set` stores the caller's array, and `get` and `getOrCreate` return the live array, so a push by the caller changes the registry. The model does not have that aliasing.
- `FixtureContext.MergeAppends`: `merge` pushes in place onto arrays that the caller or the other registry may share. The model appends to copies.
- `FixtureContext.MergeContext`: `merge` is a ghost fold over the keys in an unspecified order (a `Map` iterates in insertion order); every order gives the same registry.
- `FixtureContext.GetLast`: `ArrayHelper.last` is not part of this model; it is taken to return the last element, or `undefined` for an empty array.
- `constructor-params.ts`, the test database setup and the example schemas are not part of this model.

## Findings

| source | as written | input that shows it | evidently intended | confidence | as-written member | corrected member |
|---|---|---|---|---|---|---|
| src/fixture.ts:136-137 | a unique column's suffix that does not fit is kept as `uuidSuffix.slice(-max)` | a unique text column with `length: "0"`: `max` is 0, and `slice(-0)` is `slice(0)`, so the whole 9-character suffix is returned | the value has at most `max` characters: the last `max` characters of the suffix, none when `max` is 0 | not executed; follows from the JavaScript `slice` semantics | `Defaults.ZeroLengthColumnOverflows` | `Defaults.Attach` |
| src/fixture.ts:149-150 | an ordinary column's counter suffix that does not fit is kept as `counterSuffix.slice(-max)` | a text column with `length: "0"` (or `" "`, which `Number` reads as 0): the whole `-<counter>` suffix is returned | the value has at most `max` characters | not executed; follows from the JavaScript `slice` semantics | `Defaults.TailAsWrittenIgnoresZeroMax` | `Defaults.Tail` |

=== FILE: context_cache.dfy ===
/** The per-run context of the fixture engine: for each entity type name, the instances
    created since the last reset (`context`), and the per-type creation index
    (`contextHistory`) used to make readable value prefixes. */
module ContextCache {
  import opened Results
  import opened Js

  datatype Cache = Cache(context: map<string, seq<Addr>>, history: map<string, nat>)

  /** The instances recorded for `name`; an absent entry reads as empty. */
  function Cached(c: Cache, name: string): seq<Addr> {
    if name in c.context then c.context[name] else []
  }

  /** The creation index of `name`; an absent entry reads as 0. */
  function IndexOf(c: Cache, name: string): nat {
    if name in c.history then c.history[name] else 0
  }

  /** `addToContext(instance, name)`: appends the instance to its type's sequence and bumps
      the type's creation index, which starts at 1. */
  function AddToContext(c: Cache, instance: Addr, name: string): (r: Cache)
    ensures Cached(r, name) == Cached(c, name) + [instance]
    ensures forall n :: n != name ==> Cached(r, n) == Cached(c, n)
    ensures r.context.Keys == c.context.Keys + {name}
    ensures IndexOf(r, name) == IndexOf(c, name) + 1
    ensures forall n :: n != name ==> IndexOf(r, n) == IndexOf(c, n)
    ensures r.history.Keys == c.history.Keys + {name}
  {
    var items := if name in c.context then c.context[name] else [];
    var context := c.context[name := items + [instance]];
    if name !in c.history then Cache(context, c.history[name := 1])
    else Cache(context, c.history[name := c.history[name] + 1])
  }

  /** `getFromContext(name)`: the most recently recorded instance of the type, if any; an
      absent entry is created empty on the way. */
  function GetFromContext(c: Cache, name: string): (r: (Option<Addr>, Cache))
    ensures r.0.None? <==> Cached(c, name) == []
    ensures r.0.Some? ==> r.0.value == Cached(c, name)[|Cached(c, name)| - 1]
    ensures forall n :: Cached(r.1, n) == Cached(c, n)
    ensures r.1.history == c.history
  {
    var c' := if name in c.context then c else c.(context := c.context[name := []]);
    var items := c'.context[name];
    if items == [] then (None, c') else (Some(items[|items| - 1]), c')
  }

  /** `getIndex(name)`: the current creation index of the type, which becomes 1 when the type
      has none yet. */
  function GetIndex(c: Cache, name: string): (r: (nat, Cache))
    ensures name in c.history ==> r.0 == c.history[name] && r.1 == c
    ensures name !in c.history ==> r.0 == 1 && IndexOf(r.1, name) == 1
    ensures r.1.context == c.context
    ensures forall n :: n != name ==> IndexOf(r.1, n) == IndexOf(c, n)
  {
    if name in c.history then (c.history[name], c)
    else (1, c.(history := c.history[name := 1]))
  }

  /** `resetContext()`: forgets every recorded instance and keeps the creation indexes. */
  function ResetContext(c: Cache): (r: Cache)
    ensures forall n :: Cached(r, n) == []
    ensures r.history == c.history
  {
    c.(context := map[])
  }

  /** `resetContextHistory()`: forgets the creation indexes and keeps the instances. */
  function ResetHistory(c: Cache): (r: Cache)
    ensures forall n :: IndexOf(r, n) == 0
    ensures r.context == c.context
  {
    c.(history := map[])
  }

  /** What is recorded is what is reused: after recording an instance, the next lookup of
      its type returns exactly that instance. */
  lemma AddThenGetReturnsInstance(c: Cache, instance: Addr, name: string)
    ensures GetFromContext(AddToContext(c, instance, name), name).0 == Some(instance)
  {
  }

  /** After a reset, no type has an instance to reuse, while the creation indexes carry on
      from where they were. */
  lemma ResetForgetsReuse(c: Cache, name: string)
    ensures GetFromContext(ResetContext(c), name).0 == None
    ensures GetIndex(ResetContext(c), name).0 == GetIndex(c, name).0
  {
  }

  /** `before` is a prefix of the matching sequence in `after` (which may also have more types):
      sequences are only ever appended to. */
  ghost predicate Grows(before: Cache, after: Cache) {
    forall n :: Cached(before, n) <= Cached(after, n)
  }
}

=== FILE: defaults.dfy ===
/** Default-value synthesis for a scalar column (`defaultForColumn` and its helpers): a pure
    function of the column, its entity, the per-type creation index, the process-wide
    counter and the random identifiers drawn so far. */
module Defaults {
  import opened Results
  import opened Js
  import opened Text
  import opened Metadata
  import opened ContextCache

  /** The first 8 characters of a random UUID with its dashes removed: lower-case hex. */
  predicate IsHexFragment(s: string) {
    |s| == 8 && AllDigits(s, 16)
  }

  type Fragment = s: string | IsHexFragment(s) witness "00000000"

  /** A synthesized value with the state it leaves behind: the process-wide counter, the
      cache (whose creation index `getIndex` may initialise) and the number of random
      identifiers drawn. */
  datatype Synth = Synth(value: Value, counter: nat, cache: Cache, draws: nat)

  const NumericNames: seq<string> := ["int", "integer", "bigint", "smallint", "decimal", "numeric", "float", "double", "real"]
  const BooleanNames: seq<string> := ["bool", "boolean"]
  const TemporalNames: seq<string> := ["date", "time", "timestamp", "datetime"]
  const JsonNames: seq<string> := ["json", "jsonb"]
  const UuidNames: seq<string> := ["uuid"]

  const DefaultMaxLength := 255

  // ---------------------------------------------------------------------------
  // Helpers
  // ---------------------------------------------------------------------------

  /** `getMaxLengthForColumn`: the declared length when it is present, non-empty and a
      number, else 255. */
  function MaxLength<V>(c: Column<V>): (r: int)
    ensures r == DefaultMaxLength || (c.length.Some? && c.length.value != "" && JsNumber(c.length.value) == Some(r))
  {
    match c.length
    case None => DefaultMaxLength
    case Some(s) =>
      if s != "" && JsNumber(s).Some? then JsNumber(s).value else DefaultMaxLength
  }

  /** Some constraint in `us` has exactly the one column `name`. */
  function SomeSingleUnique(us: seq<UniqueMeta>, name: string): (r: bool)
    ensures r <==> exists i :: 0 <= i < |us| && us[i].columns == [name]
  {
    if us == [] then false
    else (|us[0].columns| == 1 && us[0].columns[0] == name) || SomeSingleUnique(us[1..], name)
  }

  /** Some unique index in `ix` has exactly the one column `name`. */
  function SomeSingleUniqueIndex(ix: seq<IndexMeta>, name: string): (r: bool)
    ensures r <==> exists i :: 0 <= i < |ix| && ix[i].isUnique && ix[i].columns == [name]
  {
    if ix == [] then false
    else (ix[0].isUnique && |ix[0].columns| == 1 && ix[0].columns[0] == name) || SomeSingleUniqueIndex(ix[1..], name)
  }

  /** `isUniqueColumn`: never for a primary column; otherwise whether a single-column unique
      constraint or unique index covers the column. */
  function IsUniqueColumn<V>(c: Column<V>, meta: EntityMeta<V>): (r: bool)
    ensures c.isPrimary ==> !r
    ensures !c.isPrimary ==> (r <==>
      (exists i :: 0 <= i < |meta.uniques| && meta.uniques[i].columns == [c.propertyName])
      || (exists i :: 0 <= i < |meta.indices| && meta.indices[i].isUnique && meta.indices[i].columns == [c.propertyName]))
  {
    if c.isPrimary then false
    else SomeSingleUnique(meta.uniques, c.propertyName) || SomeSingleUniqueIndex(meta.indices, c.propertyName)
  }

  // ---------------------------------------------------------------------------
  // Keeping the suffix
  // ---------------------------------------------------------------------------

  /** `suffix.slice(-max)`, as the library writes it for a suffix at least `max` long. */
  function TailAsWritten(suffix: string, max: int): string {
    SliceFrom(suffix, -max)
  }

  /** The last `max` characters of `suffix` (none when `max` is not positive): what the
      library means by `suffix.slice(-max)`. */
  function Tail(suffix: string, max: int): (r: string)
    requires |suffix| >= max
    ensures |r| == Max(0, max)
    ensures r == suffix[|suffix| - |r|..]
  {
    suffix[|suffix| - Max(0, max)..]
  }

  /** For a positive bound the two agree. */
  lemma TailAsWrittenAgreesForPositiveMax(suffix: string, max: int)
    requires 0 < max <= |suffix|
    ensures TailAsWritten(suffix, max) == Tail(suffix, max)
  {
  }

  /** For a zero bound `slice(-0)` is `slice(0)`: the whole suffix survives, longer than the
      column allows. */
  lemma TailAsWrittenIgnoresZeroMax(suffix: string)
    requires suffix != []
    ensures TailAsWritten(suffix, 0) == suffix
    ensures |TailAsWritten(suffix, 0)| > 0
  {
  }

  /** The value as written is a tail of the suffix, no longer than a positive bound. */
  lemma TailAsWrittenFits(suffix: string, max: int)
    requires |suffix| >= max
    ensures max > 0 ==> |TailAsWritten(suffix, max)| <= max
  {
    if max > 0 {
      TailAsWrittenAgreesForPositiveMax(suffix, max);
    }
  }

  /** `Attach` as the library writes it: the suffix is kept with `slice(-max)`. */
  function AttachAsWritten<V>(c: Column<V>, meta: EntityMeta<V>, cache: Cache, suffix: string): (r: (string, Cache))
    ensures MaxLength(c) > 0 ==> |r.0| <= MaxLength(c)
    ensures MaxLength(c) <= |suffix| ==> |r.0| <= |suffix| && r.0 == suffix[|suffix| - |r.0|..] && r.1 == cache
    ensures r.1.context == cache.context
  {
    var max := MaxLength(c);
    if |suffix| >= max then
      TailAsWrittenFits(suffix, max);
      (TailAsWritten(suffix, max), cache)
    else
      var (index, cache') := GetIndex(cache, meta.name);
      (Head(c.propertyName + Decimal(index), max - |suffix|) + suffix, cache')
  }

  /** Wherever the declared bound is positive, the corrected value equals the value the
      library computes: the two differ only for a bound of zero or less. */
  lemma AttachAgreesForPositiveLength<V>(c: Column<V>, meta: EntityMeta<V>, cache: Cache, suffix: string)
    requires MaxLength(c) > 0
    ensures Attach(c, meta, cache, suffix) == AttachAsWritten(c, meta, cache, suffix)
  {
    if |suffix| >= MaxLength(c) {
      TailAsWrittenAgreesForPositiveMax(suffix, MaxLength(c));
    }
  }

  /** A concrete column that shows it: with declared length "0" and a random suffix, the
      value as written is 9 characters long where the column allows none. */
  lemma ZeroLengthColumnOverflows(meta: EntityMeta<Value>, cache: Cache)
    ensures var c := Column("code", "code", Named("varchar"), false, false, NotGenerated,
      NoDefault, Some("0"), None, false, false, false, false);
      && MaxLength<Value>(c) == 0
      && |AttachAsWritten<Value>(c, meta, cache, "-0123abcd").0| == 9
      && |Attach<Value>(c, meta, cache, "-0123abcd").0| == 0
  {
    var c := Column("code", "code", Named("varchar"), false, false, NotGenerated,
      NoDefault, Some("0"), None, false, false, false, false);
    assert Decimal(0) == "0";
    MaxLengthOfDecimal<Value>(c, 0);
    TailAsWrittenIgnoresZeroMax("-0123abcd");
    assert AttachAsWritten<Value>(c, meta, cache, "-0123abcd").0 == TailAsWritten("-0123abcd", 0);
  }

  /** The corrected value: the prefix `{propertyName}{index}` cut to what the bound leaves
      after the suffix, followed by the whole suffix; or, when the suffix alone does not fit,
      the suffix's last `max` characters (none for a bound of zero or less). Only in the
      first case is the type's creation index read (and initialised). */
  function Attach<V>(c: Column<V>, meta: EntityMeta<V>, cache: Cache, suffix: string): (r: (string, Cache))
    ensures |r.0| <= Max(0, MaxLength(c))
    ensures |suffix| >= MaxLength(c) ==> r.0 == Tail(suffix, MaxLength(c)) && r.1 == cache
    ensures |suffix| < MaxLength(c) ==>
      var (index, cache') := GetIndex(cache, meta.name);
      && r.0 == Head(c.propertyName + Decimal(index), MaxLength(c) - |suffix|) + suffix
      && r.1 == cache'
    ensures r.1.context == cache.context
  {
    var max := MaxLength(c);
    if |suffix| >= max then (Tail(suffix, max), cache)
    else
      var (index, cache') := GetIndex(cache, meta.name);
      (Head(c.propertyName + Decimal(index), max - |suffix|) + suffix, cache')
  }

  // ---------------------------------------------------------------------------
  // defaultForColumn
  // ---------------------------------------------------------------------------

  /** The free-text branch: a unique column draws a random identifier, any other column
      takes the next value of the process-wide counter. */
  function TextDefault(c: Column<Value>, meta: EntityMeta<Value>, counter: nat, cache: Cache, draws: nat,
                       rng: nat -> Fragment): (r: Synth)
    ensures r.value.Str? && |r.value.s| <= Max(0, MaxLength(c))
    ensures IsUniqueColumn(c, meta) ==> r.counter == counter && r.draws == draws + 1
    ensures !IsUniqueColumn(c, meta) ==> r.counter == counter + 1 && r.draws == draws
    ensures r.cache.context == cache.context
  {
    if IsUniqueColumn(c, meta) then
      var (text, cache') := Attach(c, meta, cache, "-" + rng(draws));
      Synth(Str(text), counter, cache', draws + 1)
    else
      var next := counter + 1;
      var (text, cache') := Attach(c, meta, cache, "-" + Base36(next));
      Synth(Str(text), next, cache', draws)
  }

  /** `defaultForColumn(column, meta)`. */
  function DefaultForColumn(c: Column<Value>, meta: EntityMeta<Value>, counter: nat, cache: Cache, draws: nat,
                            rng: nat -> Fragment): (r: Synth)
    ensures r.counter >= counter && r.draws >= draws && r.cache.context == cache.context
    ensures r.counter != counter ==> r.counter == counter + 1 && r.value.Str?
  {
    var keep := (v: Value) => Synth(v, counter, cache, draws);
    match c.colType
    case Constructor => keep(Null)
    case Named(t) =>
      if c.default.Static? && c.default.value != Undefined then keep(c.default.value)
      else
        var s := Lower(t);
        if ContainsAny(s, NumericNames) then keep(Num(0))
        else if ContainsAny(s, BooleanNames) then keep(Bool(false))
        else if ContainsAny(s, TemporalNames) then keep(EpochDate)
        else if ContainsAny(s, JsonNames) then keep(EmptyJson)
        else if ContainsAny(s, UuidNames) then keep(Undefined)
        else if Contains(t, "enum") && c.enumValues.Some? then
          keep(if c.enumValues.value != [] then c.enumValues.value[0] else Undefined)
        else TextDefault(c, meta, counter, cache, draws, rng)
  }

  // ---------------------------------------------------------------------------
  // What the dispatch means
  // ---------------------------------------------------------------------------

  /** Some name of the family occurs in `s`. */
  ghost predicate Mentions(s: string, family: seq<string>) {
    exists k, i :: 0 <= k < |family| && OccursAt(s, family[k], i)
  }

  datatype Category = NotAString | StaticValue | Numeric | Boolean | Temporal | Json | Uuid | Enumerated | FreeText

  /** The category of a column, tested in priority order: the declared type must be a name,
      a static default wins, then the type families in turn, then declared enum values. */
  ghost function CategoryOf(c: Column<Value>): Category {
    if c.colType.Constructor? then NotAString
    else if c.default.Static? && c.default.value != Undefined then StaticValue
    else
      var s := Lower(c.colType.name);
      if Mentions(s, NumericNames) then Numeric
      else if Mentions(s, BooleanNames) then Boolean
      else if Mentions(s, TemporalNames) then Temporal
      else if Mentions(s, JsonNames) then Json
      else if Mentions(s, UuidNames) then Uuid
      else if (exists i :: OccursAt(c.colType.name, "enum", i)) && c.enumValues.Some? then Enumerated
      else FreeText
  }

  /** `v` is an acceptable default for a column of category `cat`. */
  ghost predicate DefaultFits(c: Column<Value>, v: Value) {
    match CategoryOf(c)
    case NotAString => v == Null
    case StaticValue => v == c.default.value
    case Numeric => v == Num(0)
    case Boolean => v == Bool(false)
    case Temporal => v == EpochDate
    case Json => v == EmptyJson
    case Uuid => v == Undefined
    case Enumerated => v == (if c.enumValues.value != [] then c.enumValues.value[0] else Undefined)
    case FreeText => v.Str? && |v.s| <= Max(0, MaxLength(c))
  }

  lemma ContainsAnyIffMentions(s: string, family: seq<string>)
    ensures ContainsAny(s, family) <==> Mentions(s, family)
  {
    forall k | 0 <= k < |family|
      ensures Contains(s, family[k]) <==> exists i :: OccursAt(s, family[k], i)
    {
      ContainsIffOccurs(s, family[k]);
    }
  }

  /** The dispatch of `defaultForColumn` yields the value its category calls for, and only
      free text moves the counter or draws a random identifier. */
  lemma DefaultForColumnFitsCategory(c: Column<Value>, meta: EntityMeta<Value>, counter: nat, cache: Cache,
                                     draws: nat, rng: nat -> Fragment)
    ensures DefaultFits(c, DefaultForColumn(c, meta, counter, cache, draws, rng).value)
    ensures CategoryOf(c) != FreeText ==>
      var r := DefaultForColumn(c, meta, counter, cache, draws, rng);
      r.counter == counter && r.draws == draws && r.cache == cache
    ensures CategoryOf(c) == FreeText ==>
      DefaultForColumn(c, meta, counter, cache, draws, rng) == TextDefault(c, meta, counter, cache, draws, rng)
  {
    if c.colType.Named? {
      var s := Lower(c.colType.name);
      ContainsAnyIffMentions(s, NumericNames);
      ContainsAnyIffMentions(s, BooleanNames);
      ContainsAnyIffMentions(s, TemporalNames);
      ContainsAnyIffMentions(s, JsonNames);
      ContainsAnyIffMentions(s, UuidNames);
      ContainsIffOccurs(c.colType.name, "enum");
    }
  }

  // ---------------------------------------------------------------------------
  // The free-text values
  // ---------------------------------------------------------------------------

  /** A non-unique free-text default: the counter moves on by one, and the value is the cut
      prefix followed by `-` and the new counter in base 36 when that suffix fits, else the
      suffix as `slice(-max)` keeps it; with no positive bound the value is empty. */
  lemma CounterTextShape(c: Column<Value>, meta: EntityMeta<Value>, counter: nat, cache: Cache, draws: nat,
                         rng: nat -> Fragment)
    requires !IsUniqueColumn(c, meta)
    ensures var r := TextDefault(c, meta, counter, cache, draws, rng);
      var suffix := "-" + Base36(counter + 1);
      && r.counter == counter + 1
      && |r.value.s| <= Max(0, MaxLength(c))
      && (|suffix| < MaxLength(c) ==>
            var index := GetIndex(cache, meta.name).0;
            r.value.s == Head(c.propertyName + Decimal(index), MaxLength(c) - |suffix|) + suffix
            && r.value.s[|r.value.s| - |suffix|..] == suffix)
      && (0 < MaxLength(c) <= |suffix| ==> r.value.s == TailAsWritten(suffix, MaxLength(c)))
      && (MaxLength(c) <= 0 ==> r.value.s == [])
  {
    var r := TextDefault(c, meta, counter, cache, draws, rng);
    var suffix := "-" + Base36(counter + 1);
    if |suffix| < MaxLength(c) {
      var index := GetIndex(cache, meta.name).0;
      var head := Head(c.propertyName + Decimal(index), MaxLength(c) - |suffix|);
      assert r.value.s == head + suffix;
      assert (head + suffix)[|head|..] == suffix;
    } else if 0 < MaxLength(c) {
      TailAsWrittenAgreesForPositiveMax(suffix, MaxLength(c));
    }
  }

  /** A unique free-text default: the counter stays, one random identifier is drawn, and the
      value is the cut prefix followed by `-` and the identifier when that suffix fits, else
      the suffix as `slice(-max)` keeps it; with no positive bound the value is empty. */
  lemma UniqueTextShape(c: Column<Value>, meta: EntityMeta<Value>, counter: nat, cache: Cache, draws: nat,
                        rng: nat -> Fragment)
    requires IsUniqueColumn(c, meta)
    ensures var r := TextDefault(c, meta, counter, cache, draws, rng);
      var suffix := "-" + rng(draws);
      && |suffix| == 9
      && r.counter == counter && r.draws == draws + 1
      && |r.value.s| <= Max(0, MaxLength(c))
      && (|suffix| < MaxLength(c) ==>
            var index := GetIndex(cache, meta.name).0;
            r.value.s == Head(c.propertyName + Decimal(index), MaxLength(c) - |suffix|) + suffix)
      && (|suffix| >= MaxLength(c) ==> r.cache == cache)
      && (0 < MaxLength(c) <= |suffix| ==> r.value.s == TailAsWritten(suffix, MaxLength(c)))
      && (MaxLength(c) <= 0 ==> r.value.s == [])
  {
    var suffix := "-" + rng(draws);
    if 0 < MaxLength(c) <= |suffix| {
      TailAsWrittenAgreesForPositiveMax(suffix, MaxLength(c));
    }
  }

  /** Two non-unique free-text defaults whose suffixes fit and that were made at different
      counter values never coincide, whatever their columns and prefixes: the text after
      the last `-` is the counter in base 36. */
  lemma CounterTextsDiffer(c1: Column<Value>, m1: EntityMeta<Value>, n1: nat, cache1: Cache, d1: nat,
                           c2: Column<Value>, m2: EntityMeta<Value>, n2: nat, cache2: Cache, d2: nat,
                           rng: nat -> Fragment)
    requires !IsUniqueColumn(c1, m1) && !IsUniqueColumn(c2, m2)
    requires 1 + |Base36(n1 + 1)| < MaxLength(c1) && 1 + |Base36(n2 + 1)| < MaxLength(c2)
    requires n1 != n2
    ensures TextDefault(c1, m1, n1, cache1, d1, rng).value != TextDefault(c2, m2, n2, cache2, d2, rng).value
  {
    CounterTextShape(c1, m1, n1, cache1, d1, rng);
    CounterTextShape(c2, m2, n2, cache2, d2, rng);
    var h1 := Head(c1.propertyName + Decimal(GetIndex(cache1, m1.name).0), MaxLength(c1) - 1 - |Base36(n1 + 1)|);
    var h2 := Head(c2.propertyName + Decimal(GetIndex(cache2, m2.name).0), MaxLength(c2) - 1 - |Base36(n2 + 1)|);
    DashCountersDiffer(h1, h2, n1 + 1, n2 + 1);
  }

  /** Texts ending in `-` and a base-36 number are told apart by that number. */
  lemma DashCountersDiffer(h1: string, h2: string, n1: nat, n2: nat)
    requires n1 != n2
    ensures h1 + ("-" + Base36(n1)) != h2 + ("-" + Base36(n2))
  {
    RadixHasNoDash(n1, 36);
    RadixHasNoDash(n2, 36);
    assert h1 + ("-" + Base36(n1)) == h1 + ['-'] + Base36(n1);
    assert h2 + ("-" + Base36(n2)) == h2 + ['-'] + Base36(n2);
    AfterLastRecoversTail(h1, '-', Base36(n1));
    AfterLastRecoversTail(h2, '-', Base36(n2));
    if h1 + ['-'] + Base36(n1) == h2 + ['-'] + Base36(n2) {
      RadixInjective(n1, n2, 36);
    }
  }

  /** The declared length is read back exactly when it is written as a decimal number. */
  lemma MaxLengthOfDecimal<V>(c: Column<V>, n: nat)
    requires c.length == Some(Decimal(n))
    ensures MaxLength(c) == n
  {
    JsNumberOfDecimal(n);
  }

  /** Without a usable declared length the bound is 255. */
  lemma MaxLengthFallsBack<V>(c: Column<V>)
    requires c.length.None? || c.length == Some("") || JsNumber(c.length.value).None?
    ensures MaxLength(c) == 255
  {
  }
}

=== FILE: engine.dfy ===
/** The `Fixture` engine: building one entity instance from its metadata (`createInternal`),
    the public `create` / `createMany`, and the resets.

    An instance is an entity object on the heap. The scalar pass fills its columns, the
    caller's overrides are copied on, the instance is recorded in the context, saved early
    when every required column has a value, and then the four relation passes run in the
    order one-to-one, many-to-one, one-to-many, many-to-many before the final save. The
    store is reduced to the sequence of values handed to `save`. */
module Engine {
  import opened Results
  import opened Js
  import opened Text
  import opened Metadata
  import opened ContextCache
  import opened RelationHelper
  import opened Defaults

  /** The engine state: the data source's catalog, the context, the process-wide counter, the
      number of random identifiers drawn, the heap and the log of saves. */
  datatype Fixture = Fixture(
    catalog: Catalog<Value>,
    cache: Cache,
    counter: nat,
    draws: nat,
    heap: Heap,
    saved: seq<Value>)

  /** The caller's `Partial<T>` of overrides, by property name. */
  type Overrides = map<string, Value>

  /** `repository.save(v)` */
  function Save(f: Fixture, v: Value): (r: Fixture)
    ensures |r.saved| == |f.saved| + 1 && r.saved[..|f.saved|] == f.saved && r.saved[|f.saved|] == v
    ensures r.(saved := f.saved) == f
  {
    f.(saved := f.saved + [v])
  }

  /** What every step of the engine keeps: the same catalog, counters that only grow, a
      context that is only appended to, no object changing between entity and array,
      arrays that are only appended to, and a log of saves that is only appended to. */
  ghost predicate Evolves(f: Fixture, g: Fixture) {
    && g.catalog == f.catalog
    && f.counter <= g.counter
    && f.draws <= g.draws
    && Grows(f.cache, g.cache)
    && ObjsKept(f.heap, g.heap)
    && f.saved <= g.saved
  }

  lemma EvolvesTrans(f: Fixture, g: Fixture, k: Fixture)
    requires Evolves(f, g) && Evolves(g, k)
    ensures Evolves(f, k)
  {
    assert f.saved <= k.saved by {
      assert k.saved[..|f.saved|] == k.saved[..|g.saved|][..|f.saved|];
    }
  }

  lemma HeapStep(f: Fixture, heap: Heap)
    requires ObjsKept(f.heap, heap)
    ensures Evolves(f, f.(heap := heap))
  {
  }

  lemma CacheStep(f: Fixture, cache: Cache)
    requires Grows(f.cache, cache)
    ensures Evolves(f, f.(cache := cache))
  {
  }

  lemma SaveStep(f: Fixture, v: Value)
    ensures Evolves(f, Save(f, v))
  {
  }

  /** `g` was reached from `f` by building the entity `inst` of type `name`: it is the first
      address past `f`'s heap, it is an entity of that type, and it is recorded in the
      context. */
  ghost predicate Built(f: Fixture, g: Fixture, inst: Addr, name: string) {
    && Evolves(f, g)
    && inst == |f.heap.objs| && Valid(g.heap, inst)
    && g.heap.objs[inst].kind == Entity(name)
    && inst in Cached(g.cache, name)
  }

  lemma BuiltThenEvolves(f: Fixture, g: Fixture, k: Fixture, inst: Addr, name: string)
    requires Built(f, g, inst, name) && Evolves(g, k)
    ensures Built(f, k, inst, name)
  {
    EvolvesTrans(f, g, k);
    assert Cached(g.cache, name) <= Cached(k.cache, name);
  }

  /** The last value saved in `g` is `v`, and it was saved after `f`. */
  predicate SavedLast(f: Fixture, g: Fixture, v: Value) {
    |g.saved| > |f.saved| && g.saved[|g.saved| - 1] == v
  }

  /** A build followed by steps that end with saving the instance is a build that saved it
      last. */
  lemma BuiltThenSaved(f: Fixture, g: Fixture, k: Fixture, inst: Addr, name: string)
    requires Built(f, g, inst, name) && Evolves(g, k) && SavedLast(g, k, Ref(inst))
    ensures Built(f, k, inst, name) && SavedLast(f, k, Ref(inst))
  {
    BuiltThenEvolves(f, g, k, inst, name);
  }

  // ---------------------------------------------------------------------------
  // Scalar columns
  // ---------------------------------------------------------------------------

  /** The column's database name is one of the join columns of the entity's relations. */
  function UsedInRelation(rels: seq<Relation>, name: string): (r: bool)
    ensures r <==> exists i :: 0 <= i < |rels| && name in rels[i].joinColumnAliases
  {
    if rels == [] then false
    else if name in rels[0].joinColumnAliases then true
    else
      var r := UsedInRelation(rels[1..], name);
      assert forall i :: 1 <= i < |rels| ==> rels[i] == rels[1..][i - 1];
      r
  }

  /** A column the scalar pass leaves to the database or to the relation passes when no
      value is provided for it. */
  predicate LeftToDatabase(c: Column<Value>, meta: EntityMeta<Value>) {
    || c.generation == Increment
    || c.isNullable || c.hasRelation || c.isCreateDate || c.isUpdateDate || c.isVersion
    || UsedInRelation(meta.relations, c.databaseName)
  }

  /** One iteration of `handleScalarColumns`: a provided value wins, a column left to the
      database is skipped, and any other column gets its default. */
  function ScalarColumn(f: Fixture, rng: nat -> Fragment, inst: Addr, meta: EntityMeta<Value>,
                        c: Column<Value>, provided: Overrides): (r: Fixture)
    requires Valid(f.heap, inst)
    ensures Evolves(f, r) && r.saved == f.saved && r.cache.context == f.cache.context
    ensures SameExcept(f.heap, r.heap, inst) && r.heap.objs[inst].kind == f.heap.objs[inst].kind
    ensures forall k :: k != c.propertyName ==>
      Lookup(r.heap.objs[inst].props, k) == Lookup(f.heap.objs[inst].props, k)
    ensures Provided(provided, c.propertyName) != Undefined ==>
      && Lookup(r.heap.objs[inst].props, c.propertyName) == Provided(provided, c.propertyName)
      && r.counter == f.counter && r.draws == f.draws && r.cache == f.cache
    ensures Provided(provided, c.propertyName) == Undefined && LeftToDatabase(c, meta) ==> r == f
    ensures Provided(provided, c.propertyName) == Undefined && !LeftToDatabase(c, meta) ==>
      DefaultFits(c, Lookup(r.heap.objs[inst].props, c.propertyName))
  {
    var v := Provided(provided, c.propertyName);
    if v != Undefined then f.(heap := SetField(f.heap, inst, c.propertyName, v))
    else if LeftToDatabase(c, meta) then f
    else
      var d := DefaultForColumn(c, meta, f.counter, f.cache, f.draws, rng);
      DefaultForColumnFitsCategory(c, meta, f.counter, f.cache, f.draws, rng);
      f.(heap := SetField(f.heap, inst, c.propertyName, d.value), counter := d.counter, cache := d.cache, draws := d.draws)
  }

  /** `handleScalarColumns`: the columns in order. Properties that name no column are
      untouched. */
  function ScalarColumns(f: Fixture, rng: nat -> Fragment, inst: Addr, meta: EntityMeta<Value>,
                         cols: seq<Column<Value>>, provided: Overrides): (r: Fixture)
    requires Valid(f.heap, inst)
    ensures Evolves(f, r) && r.saved == f.saved && r.cache.context == f.cache.context
    ensures SameExcept(f.heap, r.heap, inst) && r.heap.objs[inst].kind == f.heap.objs[inst].kind
    ensures forall k :: (forall i :: 0 <= i < |cols| ==> cols[i].propertyName != k) ==>
      Lookup(r.heap.objs[inst].props, k) == Lookup(f.heap.objs[inst].props, k)
    decreases |cols|
  {
    if cols == [] then f
    else
      var g := ScalarColumn(f, rng, inst, meta, cols[0], provided);
      var r := ScalarColumns(g, rng, inst, meta, cols[1..], provided);
      assert forall i :: 1 <= i < |cols| ==> cols[i] == cols[1..][i - 1];
      EvolvesTrans(f, g, r);
      r
  }

  /** No two columns share a property name. */
  predicate DistinctNames(cols: seq<Column<Value>>) {
    forall i, j :: 0 <= i < j < |cols| ==> cols[i].propertyName != cols[j].propertyName
  }

  /** After the scalar pass, each column's property holds what the rules give it: the
      provided value, what was there before when the column is left to the database, or a
      default that fits the column's type. */
  lemma {:induction false} ScalarColumnsFollowRules(f: Fixture, rng: nat -> Fragment, inst: Addr,
      meta: EntityMeta<Value>, cols: seq<Column<Value>>, provided: Overrides, j: nat)
    requires Valid(f.heap, inst)
    requires DistinctNames(cols) && j < |cols|
    ensures var r := ScalarColumns(f, rng, inst, meta, cols, provided);
      var c := cols[j];
      var v := Lookup(r.heap.objs[inst].props, c.propertyName);
      && (Provided(provided, c.propertyName) != Undefined ==> v == Provided(provided, c.propertyName))
      && (Provided(provided, c.propertyName) == Undefined && LeftToDatabase(c, meta) ==>
            v == Lookup(f.heap.objs[inst].props, c.propertyName))
      && (Provided(provided, c.propertyName) == Undefined && !LeftToDatabase(c, meta) ==> DefaultFits(c, v))
    decreases |cols|
  {
    var g := ScalarColumn(f, rng, inst, meta, cols[0], provided);
    assert ScalarColumns(f, rng, inst, meta, cols, provided) == ScalarColumns(g, rng, inst, meta, cols[1..], provided);
    if j == 0 {
      assert forall i :: 0 <= i < |cols[1..]| ==> cols[1..][i].propertyName != cols[0].propertyName by {
        forall i | 0 <= i < |cols[1..]|
          ensures cols[1..][i].propertyName != cols[0].propertyName
        {
          assert cols[1..][i] == cols[i + 1];
        }
      }
    } else {
      assert DistinctNames(cols[1..]) by {
        forall a, b | 0 <= a < b < |cols[1..]|
          ensures cols[1..][a].propertyName != cols[1..][b].propertyName
        {
          assert cols[1..][a] == cols[a + 1] && cols[1..][b] == cols[b + 1];
        }
      }
      assert cols[1..][j - 1] == cols[j];
      assert cols[j].propertyName != cols[0].propertyName;
      ScalarColumnsFollowRules(g, rng, inst, meta, cols[1..], provided, j - 1);
    }
  }

  // ---------------------------------------------------------------------------
  // Overrides and the required-columns test
  // ---------------------------------------------------------------------------

  /** The property names of the entity's columns followed by those of its relations. */
  function PropertyNames(meta: EntityMeta<Value>): seq<string> {
    seq(|meta.columns|, i requires 0 <= i < |meta.columns| => meta.columns[i].propertyName)
      + seq(|meta.relations|, i requires 0 <= i < |meta.relations| => meta.relations[i].propertyName)
  }

  /** `assignProvidedValuesToInstance`: every listed property with a provided value other
      than `undefined` takes that value; every other property keeps its own. */
  function AssignProvided(heap: Heap, inst: Addr, names: seq<string>, provided: Overrides): (r: Heap)
    requires Valid(heap, inst)
    ensures SameExcept(heap, r, inst) && ObjsKept(heap, r) && r.objs[inst].kind == heap.objs[inst].kind
    ensures forall k :: k in names && Provided(provided, k) != Undefined ==>
      Lookup(r.objs[inst].props, k) == Provided(provided, k)
    ensures forall k :: !(k in names && Provided(provided, k) != Undefined) ==>
      Lookup(r.objs[inst].props, k) == Lookup(heap.objs[inst].props, k)
    decreases |names|
  {
    if names == [] then heap
    else
      var v := Provided(provided, names[0]);
      var heap1 := if v != Undefined then SetField(heap, inst, names[0], v) else heap;
      var r := AssignProvided(heap1, inst, names[1..], provided);
      assert forall k :: k in names <==> k == names[0] || k in names[1..];
      r
  }

  /** A column the required test ignores: generated by increment, or nullable. */
  predicate MayBeEmpty(c: Column<Value>) {
    c.generation == Increment || c.isNullable
  }

  /** `allRequiredColumnsAreSet`: every column that must have a value has one other than
      `undefined` and `null`. */
  function AllRequiredColumnsAreSet(heap: Heap, inst: Addr, cols: seq<Column<Value>>): (r: bool)
    requires Valid(heap, inst)
    ensures r <==> forall i :: 0 <= i < |cols| ==>
      MayBeEmpty(cols[i]) || !Nullish(Lookup(heap.objs[inst].props, cols[i].propertyName))
    decreases |cols|
  {
    if cols == [] then true
    else if !MayBeEmpty(cols[0]) && Nullish(Lookup(heap.objs[inst].props, cols[0].propertyName)) then false
    else
      var r := AllRequiredColumnsAreSet(heap, inst, cols[1..]);
      assert forall i :: 1 <= i < |cols| ==> cols[i] == cols[1..][i - 1];
      r
  }

  /** A required column of type `uuid` with no provided value is left `undefined` by the
      scalar pass and by the overrides, so the instance is not saved before its relations
      are handled. */
  lemma UuidColumnDefersSave(f: Fixture, rng: nat -> Fragment, meta: EntityMeta<Value>, provided: Overrides, j: nat)
    requires DistinctNames(meta.columns) && j < |meta.columns|
    requires var c := meta.columns[j];
      && Provided(provided, c.propertyName) == Undefined && !LeftToDatabase(c, meta)
      && CategoryOf(c) == Uuid
    ensures Prepare(f, rng, meta, provided).0.saved == f.saved
  {
    var (heap1, inst) := Alloc(f.heap, Obj(Entity(meta.name), map[], []));
    var f1 := f.(heap := heap1);
    ScalarColumnsFollowRules(f1, rng, inst, meta, meta.columns, provided, j);
    var f2 := ScalarColumns(f1, rng, inst, meta, meta.columns, provided);
    var heap3 := AssignProvided(f2.heap, inst, PropertyNames(meta), provided);
    var c := meta.columns[j];
    assert Lookup(heap3.objs[inst].props, c.propertyName) == Undefined;
    assert !AllRequiredColumnsAreSet(heap3, inst, meta.columns);
  }

  // ---------------------------------------------------------------------------
  // createInternal and the relation passes that recurse into it
  // ---------------------------------------------------------------------------

  /** The part of `createInternal` before the relations: a fresh entity object of the type,
      the scalar pass, the overrides, the context entry and the early save. The instance is
      saved exactly when, with the overrides in place, every required column is set. */
  function Prepare(f: Fixture, rng: nat -> Fragment, meta: EntityMeta<Value>, provided: Overrides): (r: (Fixture, Addr))
    ensures Built(f, r.0, r.1, meta.name)
    ensures Cached(r.0.cache, meta.name) == Cached(f.cache, meta.name) + [r.1]
    ensures forall k :: k in PropertyNames(meta) && Provided(provided, k) != Undefined ==>
      Lookup(r.0.heap.objs[r.1].props, k) == Provided(provided, k)
    ensures r.0.saved == f.saved + (if AllRequiredColumnsAreSet(r.0.heap, r.1, meta.columns) then [Ref(r.1)] else [])
  {
    var (heap1, inst) := Alloc(f.heap, Obj(Entity(meta.name), map[], []));
    var f1 := f.(heap := heap1);
    HeapStep(f, heap1);
    var f2 := ScalarColumns(f1, rng, inst, meta, meta.columns, provided);
    var f4 := Record(f2, inst, meta, provided);
    EvolvesTrans(f1, f2, f4);
    EvolvesTrans(f, f1, f4);
    (f4, inst)
  }

  /** The overrides, the context entry and the early save, for the instance `inst`. */
  function Record(f: Fixture, inst: Addr, meta: EntityMeta<Value>, provided: Overrides): (r: Fixture)
    requires Valid(f.heap, inst)
    ensures Evolves(f, r) && |r.heap.objs| == |f.heap.objs|
    ensures Cached(r.cache, meta.name) == Cached(f.cache, meta.name) + [inst]
    ensures forall k :: k in PropertyNames(meta) && Provided(provided, k) != Undefined ==>
      Lookup(r.heap.objs[inst].props, k) == Provided(provided, k)
    ensures r.saved == f.saved + (if AllRequiredColumnsAreSet(r.heap, inst, meta.columns) then [Ref(inst)] else [])
  {
    var f3 := f.(heap := AssignProvided(f.heap, inst, PropertyNames(meta), provided),
                 cache := AddToContext(f.cache, inst, meta.name));
    assert Evolves(f, f3);
    var f4 := if AllRequiredColumnsAreSet(f3.heap, inst, meta.columns) then Save(f3, Ref(inst)) else f3;
    SaveStep(f3, Ref(inst));
    EvolvesTrans(f, f3, f4);
    f4
  }

  /** The part of `createInternal` after the early save: the four relation passes in order,
      then the final save of the instance. */
  function RelationPasses(fuel: nat, f: Fixture, rng: nat -> Fragment, inst: Addr, meta: EntityMeta<Value>,
                          provided: Overrides): (r: Result<Fixture>)
    requires Valid(f.heap, inst)
    ensures r.Success? ==> Evolves(f, r.value) && SavedLast(f, r.value, Ref(inst))
    decreases fuel, 1, |meta.relations| + 1
  {
    var f5 :- OneToOnePass(fuel, f, rng, inst, meta, provided, 0);
    var f6 :- ManyToOnePass(fuel, f5, rng, inst, meta, provided, 0);
    var f7 := OneToManyPass(f6, inst, meta, provided, 0);
    var f8 :- ManyToManyPass(f7, inst, meta, provided, 0);
    var g := Save(f8, Ref(inst));
    SaveStep(f8, Ref(inst));
    EvolvesTrans(f, f5, f6);
    EvolvesTrans(f6, f7, f8);
    EvolvesTrans(f, f6, f8);
    EvolvesTrans(f, f8, g);
    Success(g)
  }

  /** The body of `createInternal` once the metadata is known: preparation, then the
      relation passes, whose nested creations get `fuel` further levels. */
  function Build(fuel: nat, f: Fixture, rng: nat -> Fragment, meta: EntityMeta<Value>, provided: Overrides): (r: Result<(Fixture, Addr)>)
    ensures r.Success? ==> Built(f, r.value.0, r.value.1, meta.name) && SavedLast(f, r.value.0, Ref(r.value.1))
    decreases fuel, 2, 0
  {
    var prepared := Prepare(f, rng, meta, provided);
    var g :- RelationPasses(fuel, prepared.0, rng, prepared.1, meta, provided);
    BuiltThenSaved(f, prepared.0, g, prepared.1, meta.name);
    Success((g, prepared.1))
  }

  /** `createInternal(type, providedValues)`, bounded by `fuel` levels of nested creation.
      Returns the new state and the new instance: a fresh entity of the type, recorded in
      the context, and saved last. */
  function CreateInternal(fuel: nat, f: Fixture, rng: nat -> Fragment, typeName: string,
                          provided: Overrides): (r: Result<(Fixture, Addr)>)
    ensures fuel == 0 ==> r == Failure(OutOfFuel)
    ensures fuel > 0 && typeName !in f.catalog ==> r == Failure(UnregisteredType(typeName))
    ensures r.Success? ==> typeName in f.catalog
    ensures r.Success? ==> Built(f, r.value.0, r.value.1, f.catalog[typeName].name)
    ensures r.Success? ==> SavedLast(f, r.value.0, Ref(r.value.1))
    decreases fuel, 0, 0
  {
    if fuel == 0 then Failure(OutOfFuel)
    else if typeName !in f.catalog then Failure(UnregisteredType(typeName))
    else Build(fuel - 1, f, rng, f.catalog[typeName], provided)
  }

  /** One relation of `handleOneToOne`: a provided value is assigned; otherwise, unless the
      relation is nullable or its target type is unknown, a target is created with this
      instance on its inverse property, and assigned. */
  function OneToOneStep(fuel: nat, f: Fixture, rng: nat -> Fragment, inst: Addr, rel: Relation,
                        provided: Overrides): (r: Result<Fixture>)
    requires Valid(f.heap, inst)
    ensures r.Success? ==> Evolves(f, r.value)
    decreases fuel, 1, 0
  {
    var h := NewHelper(inst, rel, provided);
    if UserProvidedValue(h) then
      var heap1 := SetInstanceProperty(f.heap, h, h.providedValue);
      HeapStep(f, heap1);
      Success(f.(heap := heap1))
    else if h.isNullable || !HasMetadata(f.catalog, h.targetTypeName) then Success(f)
    else
      var res :- CreateInternal(fuel, f, rng, h.targetTypeName, map[h.targetPropertyName := Ref(inst)]);
      var heap1 := SetInstanceProperty(res.0.heap, h, Ref(res.1));
      HeapStep(res.0, heap1);
      EvolvesTrans(f, res.0, res.0.(heap := heap1));
      Success(res.0.(heap := heap1))
  }

  /** `handleOneToOne`: the one-to-one relations this entity does not own, in order. */
  function OneToOnePass(fuel: nat, f: Fixture, rng: nat -> Fragment, inst: Addr, meta: EntityMeta<Value>,
                        provided: Overrides, i: nat): (r: Result<Fixture>)
    requires Valid(f.heap, inst) && i <= |meta.relations|
    ensures r.Success? ==> Evolves(f, r.value)
    decreases fuel, 1, |meta.relations| - i
  {
    if i == |meta.relations| then Success(f)
    else
      var rel := meta.relations[i];
      var g :- if rel.kind == OneToOne && !rel.isOwning then OneToOneStep(fuel, f, rng, inst, rel, provided)
               else Success(f);
      var r :- OneToOnePass(fuel, g, rng, inst, meta, provided, i + 1);
      EvolvesTrans(f, g, r);
      Success(r)
  }

  /** One relation of `handleManyToOne`: a provided value is assigned and this instance is
      pushed onto its inverse array; a nullable relation is left alone; the most recent
      instance of the target type in the context is reused; only when there is none and the
      target type is known is a target created with `[instance]` on its inverse property. */
  function ManyToOneStep(fuel: nat, f: Fixture, rng: nat -> Fragment, inst: Addr, rel: Relation,
                         provided: Overrides): (r: Result<Fixture>)
    requires Valid(f.heap, inst)
    ensures r.Success? ==> Evolves(f, r.value)
    decreases fuel, 1, 0
  {
    var h := NewHelper(inst, rel, provided);
    if UserProvidedValue(h) then
      var heap1 := SetInstanceProperty(f.heap, h, h.providedValue);
      var heap2 :- AddThisInstanceToTheTargetSideArray(heap1, h, h.providedValue);
      HeapStep(f, heap2);
      Success(f.(heap := heap2))
    else if h.isNullable then Success(f)
    else
      var (reuse, cache1) := GetFromContext(f.cache, h.targetTypeName);
      var f1 := f.(cache := cache1);
      CacheStep(f, cache1);
      if reuse.Some? then
        var heap1 := SetInstanceProperty(f1.heap, h, Ref(reuse.value));
        HeapStep(f1, heap1);
        EvolvesTrans(f, f1, f1.(heap := heap1));
        Success(f1.(heap := heap1))
      else if !HasMetadata(f.catalog, h.targetTypeName) then Success(f1)
      else
        var r :- CreateTarget(fuel, f1, rng, h);
        EvolvesTrans(f, f1, r);
        Success(r)
  }

  /** The creating branch of `handleManyToOne`: `{[targetPropertyName]: [instance]}` is
      allocated, a target is created from it, and the target is assigned. */
  function CreateTarget(fuel: nat, f: Fixture, rng: nat -> Fragment, h: Helper): (r: Result<Fixture>)
    requires Valid(f.heap, h.instance)
    ensures r.Success? ==> Evolves(f, r.value)
    ensures h.targetTypeName in f.catalog && r.Success? ==>
      && Built(f.(heap := NewArray(f.heap, [Ref(h.instance)]).0), r.value, |f.heap.objs| + 1,
               f.catalog[h.targetTypeName].name)
      && Lookup(r.value.heap.objs[h.instance].props, h.sourcePropertyName) == Ref(|f.heap.objs| + 1)
      && r.value.heap.objs[|f.heap.objs|].kind == ArrayObj
      && [Ref(h.instance)] <= r.value.heap.objs[|f.heap.objs|].elems
    decreases fuel, 0, 1
  {
    var (heap1, a) := NewArray(f.heap, [Ref(h.instance)]);
    var f2 := f.(heap := heap1);
    HeapStep(f, heap1);
    var res :- CreateInternal(fuel, f2, rng, h.targetTypeName, map[h.targetPropertyName := Ref(a)]);
    var heap3 := SetInstanceProperty(res.0.heap, h, Ref(res.1));
    var g := res.0.(heap := heap3);
    HeapStep(res.0, heap3);
    BuiltThenEvolves(f2, res.0, g, res.1, f.catalog[h.targetTypeName].name);
    EvolvesTrans(f, f2, g);
    assert g.heap.objs[a].kind == heap1.objs[a].kind == ArrayObj && heap1.objs[a].elems <= g.heap.objs[a].elems by {
      assert ObjsKept(heap1, g.heap);
    }
    Success(g)
  }

  /** `handleManyToOne`: the many-to-one relations, in order. */
  function ManyToOnePass(fuel: nat, f: Fixture, rng: nat -> Fragment, inst: Addr, meta: EntityMeta<Value>,
                         provided: Overrides, i: nat): (r: Result<Fixture>)
    requires Valid(f.heap, inst) && i <= |meta.relations|
    ensures r.Success? ==> Evolves(f, r.value)
    decreases fuel, 1, |meta.relations| - i
  {
    if i == |meta.relations| then Success(f)
    else
      var rel := meta.relations[i];
      var g :- if rel.kind == ManyToOne then ManyToOneStep(fuel, f, rng, inst, rel, provided) else Success(f);
      var r :- ManyToOnePass(fuel, g, rng, inst, meta, provided, i + 1);
      EvolvesTrans(f, g, r);
      Success(r)
  }

  // ---------------------------------------------------------------------------
  // One-to-many and many-to-many: these never create entities
  // ---------------------------------------------------------------------------

  /** Evolves without creating an entity, drawing a default or touching the context. */
  ghost predicate Links(f: Fixture, g: Fixture) {
    && Evolves(f, g)
    && g.counter == f.counter && g.draws == f.draws
    && (forall n :: Cached(g.cache, n) == Cached(f.cache, n)) && g.cache.history == f.cache.history
    && OnlyArraysAdded(f.heap, g.heap)
  }

  lemma LinksTrans(f: Fixture, g: Fixture, k: Fixture)
    requires Links(f, g) && Links(g, k)
    ensures Links(f, k)
  {
    EvolvesTrans(f, g, k);
    OnlyArraysAddedTrans(f.heap, g.heap, k.heap);
  }

  lemma LinkHeapStep(f: Fixture, heap: Heap)
    requires OnlyArraysAdded(f.heap, heap)
    ensures Links(f, f.(heap := heap))
  {
  }

  lemma LinkSaveStep(f: Fixture, v: Value)
    ensures Links(f, Save(f, v))
  {
  }

  /** One relation of `handleOneToMany`: a provided value is assigned and the instance saved;
      otherwise nothing happens. */
  function OneToManyStep(f: Fixture, inst: Addr, rel: Relation, provided: Overrides): (r: Fixture)
    requires Valid(f.heap, inst)
    ensures Links(f, r) && r.cache == f.cache && |r.heap.objs| == |f.heap.objs|
    ensures UserProvidedValue(NewHelper(inst, rel, provided)) ==>
      && Lookup(r.heap.objs[inst].props, rel.propertyName) == Provided(provided, rel.propertyName)
      && r.saved == f.saved + [Ref(inst)]
    ensures !UserProvidedValue(NewHelper(inst, rel, provided)) ==> r == f
  {
    var h := NewHelper(inst, rel, provided);
    if UserProvidedValue(h) then Save(f.(heap := SetInstanceProperty(f.heap, h, h.providedValue)), Ref(inst))
    else f
  }

  /** `handleOneToMany`: the one-to-many relations, in order. */
  function OneToManyPass(f: Fixture, inst: Addr, meta: EntityMeta<Value>, provided: Overrides, i: nat): (r: Fixture)
    requires Valid(f.heap, inst) && i <= |meta.relations|
    ensures Links(f, r) && r.cache == f.cache && |r.heap.objs| == |f.heap.objs|
    decreases |meta.relations| - i
  {
    if i == |meta.relations| then f
    else
      var rel := meta.relations[i];
      var g := if rel.kind == OneToMany then OneToManyStep(f, inst, rel, provided) else f;
      var r := OneToManyPass(g, inst, meta, provided, i + 1);
      LinksTrans(f, g, r);
      r
  }

  /** The loop over a provided many-to-many collection: each element gets an array on its
      inverse property if it has none, and when this side owns the relation the instance is
      pushed onto that array, and the element saved, unless it is there already. */
  function LinkProvided(f: Fixture, h: Helper, owning: bool, items: seq<Value>): (r: Result<Fixture>)
    ensures r.Success? ==> Links(f, r.value) && r.value.cache == f.cache
    ensures !owning && r.Success? ==> r.value.saved == f.saved
    ensures r.Success? ==> PropsKeptExcept(f.heap, r.value.heap, h.targetPropertyName)
    decreases |items|
  {
    if items == [] then Success(f)
    else
      var g :- LinkElement(f, h, owning, items[0]);
      var r :- LinkProvided(g, h, owning, items[1..]);
      LinksTrans(f, g, r);
      PropsKeptExceptTrans(f.heap, g.heap, r.heap, h.targetPropertyName);
      Success(r)
  }

  /** One element `p` of a provided collection: its inverse property becomes an array if it
      was falsy; on the owning side the instance is pushed onto that array and `p` saved,
      unless the instance is there already. */
  function LinkElement(f: Fixture, h: Helper, owning: bool, p: Value): (r: Result<Fixture>)
    ensures r.Success? ==> Links(f, r.value) && r.value.cache == f.cache
    ensures !owning && r.Success? ==> r.value.saved == f.saved
    ensures r.Success? ==> PropsKeptExcept(f.heap, r.value.heap, h.targetPropertyName)
  {
    var cur :- GetProp(f.heap, p, h.targetPropertyName);
    var fixed :- EnsureArrayAt(f.heap, p, h.targetPropertyName, cur);
    var (heap1, arr) := fixed;
    if !owning then Success(f.(heap := heap1))
    else
      var present :- Includes(heap1, arr, Ref(h.instance));
      if present then Success(f.(heap := heap1))
      else Success(Save(f.(heap := Push(heap1, arr, Ref(h.instance)).value), p))
  }

  /** One element of a provided collection on the owning side: the element ends up with this
      instance on its inverse array, and it is saved (the join row written) exactly when
      the instance was not there yet. A truthy inverse property that is not an array throws. */
  lemma LinkOwnedElement(f: Fixture, h: Helper, p: Value)
    requires p.Ref? && Valid(f.heap, p.addr)
    ensures var cur := Lookup(f.heap.objs[p.addr].props, h.targetPropertyName);
      LinkProvided(f, h, true, [p]).Success? <==> !Truthy(cur) || IsArray(f.heap, cur)
    ensures var cur := Lookup(f.heap.objs[p.addr].props, h.targetPropertyName);
      var r := LinkProvided(f, h, true, [p]);
      r.Success? ==>
        var arr := Lookup(r.value.heap.objs[p.addr].props, h.targetPropertyName);
        && IsArray(r.value.heap, arr) && Ref(h.instance) in ArrayAt(r.value.heap, arr)
        && (r.value.saved == f.saved <==> IsArray(f.heap, cur) && Ref(h.instance) in ArrayAt(f.heap, cur))
        && (r.value.saved == f.saved || r.value.saved == f.saved + [p])
  {
    assert [p][1..] == [];
    var cur := Lookup(f.heap.objs[p.addr].props, h.targetPropertyName);
    if !Truthy(cur) {
      var fixed := EnsureArrayAt(f.heap, p, h.targetPropertyName, cur);
      assert fixed.Success?;
      var (heap1, arr) := fixed.value;
      assert GetProp(heap1, p, h.targetPropertyName) == Success(arr);
      assert heap1.objs[arr.addr].elems == [];
    }
  }

  /** Entity `q` holds an array on the relation's inverse property, and this instance is in it. */
  ghost predicate LinkedBack(heap: Heap, h: Helper, q: Addr) {
    && Valid(heap, q)
    && var arr := Lookup(heap.objs[q].props, h.targetPropertyName);
       IsArray(heap, arr) && Ref(h.instance) in ArrayAt(heap, arr)
  }

  /** Linking one element never unlinks another: arrays only grow, and a fresh array is only
      put on the element being linked, whose property was falsy. */
  lemma LinkElementKeepsLinked(f: Fixture, h: Helper, p: Value, q: Addr)
    requires LinkedBack(f.heap, h, q)
    ensures var r := LinkElement(f, h, true, p); r.Success? ==> LinkedBack(r.value.heap, h, q)
  {
    var r := LinkElement(f, h, true, p);
    if r.Success? {
      var cur := GetProp(f.heap, p, h.targetPropertyName).value;
      var (heap1, arr) := EnsureArrayAt(f.heap, p, h.targetPropertyName, cur).value;
      var was := Lookup(f.heap.objs[q].props, h.targetPropertyName);
      if !Truthy(cur) {
        assert p.addr != q;
        assert Lookup(heap1.objs[q].props, h.targetPropertyName) == was;
        assert f.heap.objs[was.addr].elems <= heap1.objs[was.addr].elems;
      }
      assert LinkedBack(heap1, h, q);
    }
  }

  lemma {:induction false} LinkProvidedKeepsLinked(f: Fixture, h: Helper, items: seq<Value>, q: Addr)
    requires LinkedBack(f.heap, h, q)
    ensures var r := LinkProvided(f, h, true, items); r.Success? ==> LinkedBack(r.value.heap, h, q)
    decreases |items|
  {
    if items != [] {
      var g := LinkElement(f, h, true, items[0]);
      LinkElementKeepsLinked(f, h, items[0], q);
      if g.Success? {
        LinkProvidedKeepsLinked(g.value, h, items[1..], q);
      }
    }
  }

  /** On the owning side, every element of a provided collection ends up with this instance
      on its inverse array. */
  lemma {:induction false} LinkProvidedLinksEvery(f: Fixture, h: Helper, items: seq<Value>)
    requires forall p | p in items :: p.Ref? && Valid(f.heap, p.addr)
    ensures var r := LinkProvided(f, h, true, items);
      r.Success? ==> forall p | p in items :: LinkedBack(r.value.heap, h, p.addr)
    decreases |items|
  {
    var r := LinkProvided(f, h, true, items);
    if items != [] && r.Success? {
      var p := items[0];
      var g := LinkElement(f, h, true, p);
      LinkOwnedElement(f, h, p);
      assert LinkProvided(f, h, true, [p]) == g;
      LinkProvidedKeepsLinked(g.value, h, items[1..], p.addr);
      assert forall x | x in items[1..] :: x in items;
      LinkProvidedLinksEvery(g.value, h, items[1..]);
      assert forall x | x in items :: x == p || x in items[1..];
    }
  }

  /** One element on the owning side: either nothing is saved, or the element itself is saved
      and is linked from then on; an element already linked is not saved. */
  lemma LinkElementSaves(f: Fixture, h: Helper, p: Value, g: Fixture)
    requires LinkElement(f, h, true, p) == Success(g)
    ensures g.saved == f.saved || (g.saved == f.saved + [p] && p.Ref? && LinkedBack(g.heap, h, p.addr))
    ensures p.Ref? && LinkedBack(f.heap, h, p.addr) ==> g.saved == f.saved
  {
    var cur := GetProp(f.heap, p, h.targetPropertyName).value;
    var (heap1, arr) := EnsureArrayAt(f.heap, p, h.targetPropertyName, cur).value;
    if g.saved != f.saved {
      assert Lookup(heap1.objs[p.addr].props, h.targetPropertyName) == arr;
    }
  }

  /** One turn of the loop: a successful run over `items` is the first element's link followed
      by a successful run over the rest, and the save log only grows. */
  lemma LinkProvidedStep(f: Fixture, h: Helper, items: seq<Value>, r: Fixture) returns (g: Fixture)
    requires items != [] && LinkProvided(f, h, true, items) == Success(r)
    ensures LinkElement(f, h, true, items[0]) == Success(g)
    ensures LinkProvided(g, h, true, items[1..]) == Success(r)
    ensures f.saved <= g.saved <= r.saved
  {
    g := LinkElement(f, h, true, items[0]).value;
  }

  /** An element that is already linked is never saved again by the rest of the loop. */
  lemma {:induction false} LinkedNeverSavedAgain(f: Fixture, h: Helper, items: seq<Value>, p: Value, r: Fixture)
    requires p.Ref? && LinkedBack(f.heap, h, p.addr)
    requires LinkProvided(f, h, true, items) == Success(r)
    ensures forall k | |f.saved| <= k < |r.saved| :: r.saved[k] != p
    decreases |items|
  {
    if items == [] {
      assert r == f;
    } else {
      var x := items[0];
      var g := LinkProvidedStep(f, h, items, r);
      LinkElementSaves(f, h, x, g);
      LinkElementKeepsLinked(f, h, x, p.addr);
      LinkedNeverSavedAgain(g, h, items[1..], p, r);
      assert g.saved == f.saved || (g.saved == f.saved + [x] && x != p);
    }
  }

  /** On the owning side, the loop saves only elements of the collection, each linked, and
      none twice: one join row per element, whatever the collection repeats. */
  lemma {:induction false} LinkProvidedSavesOnce(f: Fixture, h: Helper, items: seq<Value>)
    ensures var r := LinkProvided(f, h, true, items);
      r.Success? ==>
        && (forall k | |f.saved| <= k < |r.value.saved| ::
              r.value.saved[k] in items && r.value.saved[k].Ref? && LinkedBack(r.value.heap, h, r.value.saved[k].addr))
        && (forall i, j | |f.saved| <= i < j < |r.value.saved| :: r.value.saved[i] != r.value.saved[j])
    decreases |items|
  {
    if items != [] && LinkProvided(f, h, true, items).Success? {
      var r := LinkProvided(f, h, true, items).value;
      LinkSavesOnceStep(f, h, items, r);
    }
  }

  /** `LinkProvidedSavesOnce` for a non-empty collection that links successfully. */
  lemma LinkSavesOnceStep(f: Fixture, h: Helper, items: seq<Value>, r: Fixture)
    requires items != [] && LinkProvided(f, h, true, items) == Success(r)
    ensures forall k | |f.saved| <= k < |r.saved| :: r.saved[k] in items && r.saved[k].Ref? && LinkedBack(r.heap, h, r.saved[k].addr)
    ensures forall i, j | |f.saved| <= i < j < |r.saved| :: r.saved[i] != r.saved[j]
    decreases |items|, 0
  {
    var p := items[0];
    var g := LinkProvidedStep(f, h, items, r);
    LinkElementSaves(f, h, p, g);
    LinkProvidedSavesOnce(g, h, items[1..]);
    assert forall x | x in items[1..] :: x in items;
    if g.saved != f.saved {
      LinkProvidedKeepsLinked(g, h, items[1..], p.addr);
      LinkedNeverSavedAgain(g, h, items[1..], p, r);
      assert r.saved[|f.saved|] == p;
      DistinctAfterHead(r.saved, |f.saved|);
    }
  }

  /** Entries from `n + 1` on are pairwise distinct and differ from entry `n`: so entries
      from `n` on are pairwise distinct. */
  lemma DistinctAfterHead(s: seq<Value>, n: nat)
    requires n < |s|
    requires forall k | n + 1 <= k < |s| :: s[k] != s[n]
    requires forall i, j | n + 1 <= i < j < |s| :: s[i] != s[j]
    ensures forall i, j | n <= i < j < |s| :: s[i] != s[j]
  {
  }

  /** `if (!p[key]) { p[key] = []; }` given the current value `cur` of `p[key]`: the heap
      after the assignment and the value `p[key]` holds then. */
  function EnsureArrayAt(heap: Heap, p: Value, key: string, cur: Value): (r: Result<(Heap, Value)>)
    ensures Truthy(cur) ==> r == Success((heap, cur))
    ensures !Truthy(cur) && p.Ref? && Valid(heap, p.addr) ==> r.Success?
    ensures !Truthy(cur) && !p.Ref? ==> r == Failure(TypeError)
    ensures r.Success? ==> OnlyArraysAdded(heap, r.value.0) && PropsKeptExcept(heap, r.value.0, key)
    ensures r.Success? && !Truthy(cur) ==> IsArray(r.value.0, r.value.1) && r.value.1.addr == |heap.objs|
  {
    if Truthy(cur) then Success((heap, cur))
    else
      var (heap0, a) := NewArray(heap, []);
      var heap1 :- SetProp(heap0, p, key, Ref(a));
      Success((heap1, Ref(a)))
  }

  /** The provided-collection branch of `handleManyToMany`: the instance's property becomes
      the collection, each element is linked, and the instance is then pushed onto an array
      hung on the collection object itself. */
  function ManyToManyProvided(f: Fixture, h: Helper, owning: bool): (r: Result<Fixture>)
    requires Valid(f.heap, h.instance)
    ensures r.Success? ==> Links(f, r.value) && r.value.cache == f.cache
    ensures r.Success? && h.targetPropertyName != h.sourcePropertyName ==>
      Lookup(r.value.heap.objs[h.instance].props, h.sourcePropertyName) == h.providedValue
    ensures r.Success? && h.targetPropertyName != [] ==>
      && h.providedValue.Ref? && Valid(r.value.heap, h.providedValue.addr)
      && var arr := Lookup(r.value.heap.objs[h.providedValue.addr].props, h.targetPropertyName);
         && IsArray(r.value.heap, arr) && |ArrayAt(r.value.heap, arr)| > 0
         && ArrayAt(r.value.heap, arr)[|ArrayAt(r.value.heap, arr)| - 1] == Ref(h.instance)
  {
    var f1 := f.(heap := SetInstanceProperty(f.heap, h, h.providedValue));
    var items :- Elements(f1.heap, h.providedValue);
    var f2 :- LinkProvided(f1, h, owning, items);
    var heap3 :- AddThisInstanceToTheTargetSideArray(f2.heap, h, h.providedValue);
    var g := f2.(heap := heap3);
    LinksTrans(f, f1, f2);
    LinksTrans(f, f2, g);
    Success(g)
  }

  /** The reuse branch of `handleManyToMany` once an instance `reuse` of the target type was
      found: nothing when the instance's array already holds it; otherwise this instance is
      pushed onto its inverse array, it is saved, and it is pushed onto the instance's own
      array. */
  function ManyToManyReuse(f: Fixture, h: Helper, reuse: Addr): (r: Result<Fixture>)
    requires Valid(f.heap, h.instance)
    ensures r.Success? ==> Links(f, r.value) && r.value.cache == f.cache
  {
    var cur := Lookup(f.heap.objs[h.instance].props, h.sourcePropertyName);
    var already :- if Nullish(cur) then Success(false) else Includes(f.heap, cur, Ref(reuse));
    if already then Success(f)
    else
      var heap2 :- AddThisInstanceToTheTargetSideArray(f.heap, h, Ref(reuse));
      var f2 := f.(heap := heap2);
      var f3 := Save(f2, Ref(reuse));
      var heap4 :- AddValueToInstanceArray(f3.heap, h, Ref(reuse));
      var g := f3.(heap := heap4);
      LinkHeapStep(f, heap2);
      LinkSaveStep(f2, Ref(reuse));
      LinkHeapStep(f3, heap4);
      LinksTrans(f, f2, f3);
      LinksTrans(f, f3, g);
      Success(g)
  }

  /** One relation of `handleManyToMany`: a provided collection is assigned and linked, and
      this instance is then pushed onto the inverse property of the collection object
      itself; otherwise the most recent instance of the target type, if any, is reused. */
  function ManyToManyStep(f: Fixture, inst: Addr, rel: Relation, provided: Overrides): (r: Result<Fixture>)
    requires Valid(f.heap, inst)
    ensures r.Success? ==> Links(f, r.value)
  {
    var h := NewHelper(inst, rel, provided);
    if UserProvidedValue(h) then ManyToManyProvided(f, h, rel.isOwning)
    else
      var (reuse, cache1) := GetFromContext(f.cache, h.targetTypeName);
      var f1 := f.(cache := cache1);
      if reuse.None? then Success(f1)
      else
        var r :- ManyToManyReuse(f1, h, reuse.value);
        LinksTrans(f, f1, r);
        Success(r)
  }

  /** `handleManyToMany`: the many-to-many relations, in order. */
  function ManyToManyPass(f: Fixture, inst: Addr, meta: EntityMeta<Value>, provided: Overrides, i: nat): (r: Result<Fixture>)
    requires Valid(f.heap, inst) && i <= |meta.relations|
    ensures r.Success? ==> Links(f, r.value)
    decreases |meta.relations| - i
  {
    if i == |meta.relations| then Success(f)
    else
      var rel := meta.relations[i];
      var g :- if rel.kind == ManyToMany then ManyToManyStep(f, inst, rel, provided) else Success(f);
      var r :- ManyToManyPass(g, inst, meta, provided, i + 1);
      LinksTrans(f, g, r);
      Success(r)
  }

  // ---------------------------------------------------------------------------
  // Public operations
  // ---------------------------------------------------------------------------

  /** `create(type, providedValues)`: the type must be known; the instance is built by
      `createInternal` and saved once more. */
  function Create(fuel: nat, f: Fixture, rng: nat -> Fragment, typeName: string, provided: Overrides): (r: Result<(Fixture, Addr)>)
    ensures typeName !in f.catalog ==> r == Failure(UnregisteredType(typeName))
    ensures typeName in f.catalog && fuel == 0 ==> r == Failure(OutOfFuel)
    ensures r.Success? ==> typeName in f.catalog && Built(f, r.value.0, r.value.1, f.catalog[typeName].name)
    ensures r.Success? ==>
      var saved := r.value.0.saved;
      |saved| >= |f.saved| + 2 && saved[|saved| - 1] == Ref(r.value.1) && saved[|saved| - 2] == Ref(r.value.1)
  {
    var meta :- GetMetadata(f.catalog, typeName);
    var res :- CreateInternal(fuel, f, rng, typeName, provided);
    var g := Save(res.0, Ref(res.1));
    SaveStep(res.0, Ref(res.1));
    BuiltThenEvolves(f, res.0, g, res.1, meta.name);
    Success((g, res.1))
  }

  /** `insts` are entities of kind `kind` allocated past `h0` and alive in `h`, in increasing
      order of allocation. */
  ghost predicate FreshInOrder(h0: Heap, h: Heap, insts: seq<Addr>, kind: ObjKind) {
    && (forall i, j :: 0 <= i < j < |insts| ==> insts[i] < insts[j])
    && (forall i :: 0 <= i < |insts| ==> |h0.objs| <= insts[i] < |h.objs| && h.objs[insts[i]].kind == kind)
  }

  /** `createMany(times, type, providedValues)`: `create` run `times` times (none when
      `times` is not positive) with the same overrides: as many fresh instances of the type,
      in the order they were created. */
  function CreateMany(fuel: nat, f: Fixture, rng: nat -> Fragment, times: int, typeName: string,
                      provided: Overrides): (r: Result<(Fixture, seq<Addr>)>)
    ensures times <= 0 ==> r == Success((f, []))
    ensures times > 0 && typeName !in f.catalog ==> r == Failure(UnregisteredType(typeName))
    ensures r.Success? ==> Evolves(f, r.value.0) && |r.value.1| == Max(0, times)
    ensures r.Success? && times > 0 ==>
      typeName in f.catalog && FreshInOrder(f.heap, r.value.0.heap, r.value.1, Entity(f.catalog[typeName].name))
    decreases times
  {
    if times <= 0 then Success((f, []))
    else
      var first :- Create(fuel, f, rng, typeName, provided);
      var rest :- CreateMany(fuel, first.0, rng, times - 1, typeName, provided);
      EvolvesTrans(f, first.0, rest.0);
      CreatedInOrder(f.heap, first.0.heap, rest.0.heap, first.1, rest.1, Entity(f.catalog[typeName].name));
      Success((rest.0, [first.1] + rest.1))
  }

  /** The bookkeeping step of `CreateMany`: one instance followed by the later ones. */
  lemma CreatedInOrder(h0: Heap, h1: Heap, h2: Heap, inst: Addr, insts: seq<Addr>, kind: ObjKind)
    requires ObjsKept(h1, h2) && |h0.objs| <= inst < |h1.objs| && h1.objs[inst].kind == kind
    requires FreshInOrder(h1, h2, insts, kind)
    ensures FreshInOrder(h0, h2, [inst] + insts, kind)
  {
    var all := [inst] + insts;
    assert forall i :: 1 <= i < |all| ==> all[i] == insts[i - 1];
  }

  /** `resetContext()`: no instance is reused after it; everything else stays. */
  function ResetContext(f: Fixture): (r: Fixture)
    ensures forall n :: Cached(r.cache, n) == []
    ensures r.cache.history == f.cache.history
    ensures r == f.(cache := r.cache)
  {
    f.(cache := ContextCache.ResetContext(f.cache))
  }

  /** `resetDataSource(dataSource)`: a new catalog, an empty context and fresh creation
      indexes; the process-wide counter carries on, so counter suffixes made before and
      after the reset still differ. */
  function ResetDataSource(f: Fixture, catalog: Catalog<Value>): (r: Fixture)
    ensures r.catalog == catalog
    ensures forall n :: Cached(r.cache, n) == [] && IndexOf(r.cache, n) == 0
    ensures r.counter == f.counter && r.draws == f.draws && r.heap == f.heap && r.saved == f.saved
  {
    f.(catalog := catalog, cache := ResetHistory(ContextCache.ResetContext(f.cache)))
  }

  // ---------------------------------------------------------------------------
  // The relation policies
  // ---------------------------------------------------------------------------

  /** The instance's property for the relation after a step. */
  function RelationValue(f: Fixture, inst: Addr, rel: Relation): Value
    requires Valid(f.heap, inst)
  {
    Lookup(f.heap.objs[inst].props, rel.propertyName)
  }

  /** `handleOneToOne` for one relation, case by case: a provided value is assigned without
      creating anything; a nullable relation or an unknown target type changes nothing;
      otherwise a new instance of the target type is created and assigned. */
  lemma OneToOnePolicy(fuel: nat, f: Fixture, rng: nat -> Fragment, inst: Addr, rel: Relation, provided: Overrides)
    requires Valid(f.heap, inst)
    ensures var r := OneToOneStep(fuel, f, rng, inst, rel, provided);
      Provided(provided, rel.propertyName) != Undefined ==>
        && r.Success? && RelationValue(r.value, inst, rel) == Provided(provided, rel.propertyName)
        && r.value.counter == f.counter && r.value.cache == f.cache && r.value.saved == f.saved
        && |r.value.heap.objs| == |f.heap.objs|
    ensures Provided(provided, rel.propertyName) == Undefined && (rel.isNullable || rel.targetTypeName !in f.catalog) ==>
      OneToOneStep(fuel, f, rng, inst, rel, provided) == Success(f)
    ensures var r := OneToOneStep(fuel, f, rng, inst, rel, provided);
      Provided(provided, rel.propertyName) == Undefined && !rel.isNullable && rel.targetTypeName in f.catalog && r.Success? ==>
        && RelationValue(r.value, inst, rel) == Ref(|f.heap.objs|)
        && r.value.heap.objs[|f.heap.objs|].kind == Entity(f.catalog[rel.targetTypeName].name)
        && |f.heap.objs| in Cached(r.value.cache, f.catalog[rel.targetTypeName].name)
  {
  }

  /** The relations `handleOneToOne` selects: one-to-one and not owned by this side. */
  function NonOwnedOneToOnes(rels: seq<Relation>): (r: seq<Relation>)
    ensures forall x :: x in r <==> x in rels && x.kind == OneToOne && !x.isOwning
  {
    if rels == [] then []
    else (if rels[0].kind == OneToOne && !rels[0].isOwning then [rels[0]] else []) + NonOwnedOneToOnes(rels[1..])
  }

  /** The one-to-one step applied to every relation of `rels` in order, stopping at the
      first failure. */
  function OneToOneFold(fuel: nat, f: Fixture, rng: nat -> Fragment, inst: Addr, rels: seq<Relation>,
                        provided: Overrides): (r: Result<Fixture>)
    requires Valid(f.heap, inst)
    ensures r.Success? ==> Evolves(f, r.value)
    decreases |rels|
  {
    if rels == [] then Success(f)
    else
      var g :- OneToOneStep(fuel, f, rng, inst, rels[0], provided);
      var r :- OneToOneFold(fuel, g, rng, inst, rels[1..], provided);
      EvolvesTrans(f, g, r);
      Success(r)
  }

  /** `handleOneToOne` is the one-to-one step over exactly the one-to-one relations this
      entity does not own, in their declared order: an owned relation, or one of another
      kind, is never handled. */
  lemma {:induction false} OneToOnePassSkipsOwned(fuel: nat, f: Fixture, rng: nat -> Fragment, inst: Addr,
                                                 meta: EntityMeta<Value>, provided: Overrides, i: nat)
    requires Valid(f.heap, inst) && i <= |meta.relations|
    ensures OneToOnePass(fuel, f, rng, inst, meta, provided, i)
         == OneToOneFold(fuel, f, rng, inst, NonOwnedOneToOnes(meta.relations[i..]), provided)
    decreases |meta.relations| - i
  {
    var rels := meta.relations[i..];
    if i < |meta.relations| {
      var rel := meta.relations[i];
      assert rels[0] == rel && rels[1..] == meta.relations[i + 1..];
      var rest := NonOwnedOneToOnes(meta.relations[i + 1..]);
      if rel.kind == OneToOne && !rel.isOwning {
        assert NonOwnedOneToOnes(rels) == [rel] + rest;
        assert ([rel] + rest)[0] == rel && ([rel] + rest)[1..] == rest;
        var g := OneToOneStep(fuel, f, rng, inst, rel, provided);
        if g.Success? {
          OneToOnePassSkipsOwned(fuel, g.value, rng, inst, meta, provided, i + 1);
        }
      } else {
        assert NonOwnedOneToOnes(rels) == rest;
        OneToOnePassSkipsOwned(fuel, f, rng, inst, meta, provided, i + 1);
      }
    }
  }

  /** `handleManyToOne` with a provided value: it is assigned, this instance is pushed onto
      the provided target's inverse array, and no entity is created, nothing is saved and
      the context is not consulted. */
  lemma ManyToOneUsesProvided(fuel: nat, f: Fixture, rng: nat -> Fragment, inst: Addr, rel: Relation, provided: Overrides)
    requires Valid(f.heap, inst) && f.heap.objs[inst].kind.Entity?
    requires Provided(provided, rel.propertyName) != Undefined
    ensures var r := ManyToOneStep(fuel, f, rng, inst, rel, provided);
      r.Success? ==>
        && r.value.counter == f.counter && r.value.cache == f.cache && r.value.saved == f.saved
        && OnlyArraysAdded(f.heap, r.value.heap)
        && (Provided(provided, rel.propertyName) != Ref(inst) ==>
              RelationValue(r.value, inst, rel) == Provided(provided, rel.propertyName))
    ensures var r := ManyToOneStep(fuel, f, rng, inst, rel, provided);
      var target := Provided(provided, rel.propertyName);
      r.Success? && TargetPropertyName(rel) != [] ==>
        && target.Ref? && Valid(r.value.heap, target.addr)
        && var arr := Lookup(r.value.heap.objs[target.addr].props, TargetPropertyName(rel));
           && IsArray(r.value.heap, arr) && |ArrayAt(r.value.heap, arr)| > 0
           && ArrayAt(r.value.heap, arr)[|ArrayAt(r.value.heap, arr)| - 1] == Ref(inst)
  {
    var h := NewHelper(inst, rel, provided);
    var heap1 := SetInstanceProperty(f.heap, h, h.providedValue);
    var r := AddThisInstanceToTheTargetSideArray(heap1, h, h.providedValue);
    if r.Success? && h.providedValue != Ref(inst) && h.targetPropertyName != [] {
      var arr := Lookup(r.value.objs[h.providedValue.addr].props, h.targetPropertyName);
      assert r.value.objs[inst].kind == heap1.objs[inst].kind;
      assert arr.addr != inst;
      assert r.value.objs[inst] == heap1.objs[inst];
    }
  }

  /** `handleManyToOne` without a provided value: a nullable relation changes nothing;
      otherwise the most recent instance of the target type in the context is reused; with
      none, an unknown target type changes nothing but the empty context entry. */
  lemma ManyToOneSkipsOrReuses(fuel: nat, f: Fixture, rng: nat -> Fragment, inst: Addr, rel: Relation, provided: Overrides)
    requires Valid(f.heap, inst)
    requires Provided(provided, rel.propertyName) == Undefined
    ensures rel.isNullable ==> ManyToOneStep(fuel, f, rng, inst, rel, provided) == Success(f)
    ensures var r := ManyToOneStep(fuel, f, rng, inst, rel, provided);
      var cached := Cached(f.cache, rel.targetTypeName);
      !rel.isNullable && cached != [] ==>
        && r.Success? && RelationValue(r.value, inst, rel) == Ref(cached[|cached| - 1])
        && |r.value.heap.objs| == |f.heap.objs| && r.value.counter == f.counter && r.value.saved == f.saved
    ensures var r := ManyToOneStep(fuel, f, rng, inst, rel, provided);
      !rel.isNullable && Cached(f.cache, rel.targetTypeName) == [] && rel.targetTypeName !in f.catalog ==>
        && r.Success? && r.value.heap == f.heap && r.value.saved == f.saved && r.value.counter == f.counter
        && (forall n :: Cached(r.value.cache, n) == Cached(f.cache, n))
  {
  }

  /** `handleManyToOne` with nothing provided, a required relation and no instance of the
      target type to reuse: an array holding this instance is allocated, then a target is
      created with that array on its inverse property, and the target is assigned. */
  lemma ManyToOneCreatesTarget(fuel: nat, f: Fixture, rng: nat -> Fragment, inst: Addr, rel: Relation, provided: Overrides)
    requires Valid(f.heap, inst)
    requires Provided(provided, rel.propertyName) == Undefined && !rel.isNullable
    requires Cached(f.cache, rel.targetTypeName) == [] && rel.targetTypeName in f.catalog
    ensures var r := ManyToOneStep(fuel, f, rng, inst, rel, provided);
      r.Success? ==>
        && RelationValue(r.value, inst, rel) == Ref(|f.heap.objs| + 1)
        && r.value.heap.objs[|f.heap.objs|].kind == ArrayObj
        && [Ref(inst)] <= r.value.heap.objs[|f.heap.objs|].elems
        && r.value.heap.objs[|f.heap.objs| + 1].kind == Entity(f.catalog[rel.targetTypeName].name)
        && |f.heap.objs| + 1 in Cached(r.value.cache, f.catalog[rel.targetTypeName].name)
  {
  }

  /** An explicit `null` for a many-to-one relation with an inverse property counts as
      provided, and pushing the instance onto `null`'s inverse array throws. */
  lemma ManyToOneNullOverrideThrows(fuel: nat, f: Fixture, rng: nat -> Fragment, inst: Addr, rel: Relation,
                                    provided: Overrides)
    requires Valid(f.heap, inst)
    requires Provided(provided, rel.propertyName) == Null
    requires TargetPropertyName(rel) != []
    ensures ManyToOneStep(fuel, f, rng, inst, rel, provided) == Failure(TypeError)
  {
  }

  /** After `resetContext`, a required many-to-one relation with no override no longer
      reuses an earlier target: it creates a new one. */
  lemma ResetForcesNewTarget(fuel: nat, f: Fixture, rng: nat -> Fragment, inst: Addr, rel: Relation, provided: Overrides)
    requires Valid(f.heap, inst)
    requires Provided(provided, rel.propertyName) == Undefined && !rel.isNullable
    requires rel.targetTypeName in f.catalog
    ensures var r := ManyToOneStep(fuel, ResetContext(f), rng, inst, rel, provided);
      r.Success? ==> RelationValue(r.value, inst, rel) == Ref(|f.heap.objs| + 1)
  {
    ManyToOneCreatesTarget(fuel, ResetContext(f), rng, inst, rel, provided);
  }

  /** The reuse branch of `handleManyToMany` adds nothing when the instance's array already
      holds the reused target; otherwise, on success, the target is saved and ends the
      instance's array. */
  lemma ManyToManyReuseGuard(f: Fixture, h: Helper, reuse: Addr)
    requires Valid(f.heap, h.instance)
    ensures var cur := Lookup(f.heap.objs[h.instance].props, h.sourcePropertyName);
      var r := ManyToManyReuse(f, h, reuse);
      && (IsArray(f.heap, cur) && Ref(reuse) in f.heap.objs[cur.addr].elems ==> r == Success(f))
      && (Truthy(cur) && !IsArray(f.heap, cur) ==> r.Failure?)
      && (r.Success? && r.value != f ==>
            && r.value.saved == f.saved + [Ref(reuse)]
            && var arr := Lookup(r.value.heap.objs[h.instance].props, h.sourcePropertyName);
               IsArray(r.value.heap, arr) && ArrayAt(r.value.heap, arr)[|ArrayAt(r.value.heap, arr)| - 1] == Ref(reuse))
  {
    var cur := Lookup(f.heap.objs[h.instance].props, h.sourcePropertyName);
    var r := ManyToManyReuse(f, h, reuse);
    var already := if Nullish(cur) then Success(false) else Includes(f.heap, cur, Ref(reuse));
    if already.Success? && !already.value {
      var heap2 := AddThisInstanceToTheTargetSideArray(f.heap, h, Ref(reuse));
      if heap2.Success? {
        var f3 := Save(f.(heap := heap2.value), Ref(reuse));
        var heap4 := AddValueToInstanceArray(f3.heap, h, Ref(reuse));
        assert r == (if heap4.Success? then Success(f3.(heap := heap4.value)) else Failure(heap4.error));
      }
    }
  }

  /** `handleOneToMany` and `handleManyToMany` never create an entity: the counter, the random
      draws and the context's instances stay as they were, and every object they allocate is
      an array. */
  lemma CollectionPassesCreateNoEntity(f: Fixture, inst: Addr, meta: EntityMeta<Value>, provided: Overrides)
    requires Valid(f.heap, inst)
    ensures var g := OneToManyPass(f, inst, meta, provided, 0);
      var r := ManyToManyPass(g, inst, meta, provided, 0);
      r.Success? ==>
        && r.value.counter == f.counter && r.value.draws == f.draws
        && (forall n :: Cached(r.value.cache, n) == Cached(f.cache, n))
        && (forall b :: |f.heap.objs| <= b < |r.value.heap.objs| ==> r.value.heap.objs[b].kind == ArrayObj)
  {
    var g := OneToManyPass(f, inst, meta, provided, 0);
    var r := ManyToManyPass(g, inst, meta, provided, 0);
    if r.Success? {
      LinksTrans(f, g, r.value);
    }
  }
}

=== FILE: fixture_context.dfy ===
/** `TypeRegistry` and `FixtureContext`: a map from a type key to the sequence of instances
    recorded for it, with last-element lookup, counts and append-merge. Registries are
    values here; the in-place `push` of `merge` becomes a new registry. */
module FixtureContext {
  import opened Results

  datatype TypeRegistry<K, V> = TypeRegistry(entries: map<K, seq<V>>)

  /** `set(key, instances)` */
  function Set<K(!new), V>(reg: TypeRegistry<K, V>, key: K, instances: seq<V>): (r: TypeRegistry<K, V>)
    ensures Get(r, key) == Some(instances)
    ensures forall k :: k != key ==> Get(r, k) == Get(reg, k)
  {
    TypeRegistry(reg.entries[key := instances])
  }

  /** `get(key)`: the stored sequence, or undefined. */
  function Get<K(!new), V>(reg: TypeRegistry<K, V>, key: K): Option<seq<V>> {
    if key in reg.entries then Some(reg.entries[key]) else None
  }

  /** `getOrCreate(key, factory)`: the existing sequence, or the factory's result stored under
      the key. Returns the new registry and the sequence. */
  function GetOrCreate<K(!new), V>(reg: TypeRegistry<K, V>, key: K, factory: () -> seq<V>): (r: (TypeRegistry<K, V>, seq<V>))
    ensures Get(reg, key).Some? ==> r.0 == reg && r.1 == Get(reg, key).value
    ensures Get(reg, key).None? ==> r.1 == factory() && Get(r.0, key) == Some(r.1)
    ensures forall k :: k != key ==> Get(r.0, k) == Get(reg, k)
  {
    match Get(reg, key)
    case Some(existing) => (reg, existing)
    case None =>
      var created := factory();
      (Set(reg, key, created), created)
  }

  /** One step of `merge`: `getOrCreate(key, () => []).push(...value)`. */
  function MergeEntry<K(!new), V>(reg: TypeRegistry<K, V>, key: K, value: seq<V>): (r: TypeRegistry<K, V>)
    ensures Stored(r, key) == Stored(reg, key) + value
    ensures forall k :: k != key ==> Get(r, k) == Get(reg, k)
  {
    var (reg', existing) := GetOrCreate(reg, key, () => []);
    Set(reg', key, existing + value)
  }

  /** `merge(other)`: folds `MergeEntry` over the keys of `other`, in any order. */
  ghost function Merge<K(!new), V>(reg: TypeRegistry<K, V>, other: TypeRegistry<K, V>): (r: TypeRegistry<K, V>)
    ensures r.entries.Keys == reg.entries.Keys + other.entries.Keys
    decreases |other.entries|
  {
    if other.entries == map[] then reg
    else
      var key :| key in other.entries;
      MergeEntryAppends(reg, key, other.entries[key]);
      Merge(MergeEntry(reg, key, other.entries[key]), TypeRegistry(other.entries - {key}))
  }

  /** The sequence stored under `key`, with an absent key read as empty. */
  function Stored<K(!new), V>(reg: TypeRegistry<K, V>, key: K): seq<V> {
    if key in reg.entries then reg.entries[key] else []
  }

  lemma MergeEntryAppends<K(!new), V>(reg: TypeRegistry<K, V>, key: K, value: seq<V>)
    ensures MergeEntry(reg, key, value).entries.Keys == reg.entries.Keys + {key}
    ensures Stored(MergeEntry(reg, key, value), key) == Stored(reg, key) + value
    ensures forall k :: k != key ==> Get(MergeEntry(reg, key, value), k) == Get(reg, k)
  {
  }

  /** The key a non-empty merge takes first, and the smaller merge it leaves. */
  lemma MergeUnfolds<K(!new), V>(reg: TypeRegistry<K, V>, other: TypeRegistry<K, V>) returns (key: K)
    requires other.entries != map[]
    ensures key in other.entries
    ensures |(other.entries - {key}).Keys| < |other.entries.Keys|
    ensures Merge(reg, other) == Merge(MergeEntry(reg, key, other.entries[key]), TypeRegistry(other.entries - {key}))
  {
    key :| key in other.entries && Merge(reg, other) == Merge(MergeEntry(reg, key, other.entries[key]), TypeRegistry(other.entries - {key}));
    assert (other.entries - {key}).Keys == other.entries.Keys - {key};
  }

  lemma StoredOfGet<K(!new), V>(a: TypeRegistry<K, V>, b: TypeRegistry<K, V>, k: K)
    requires Get(a, k) == Get(b, k)
    ensures Stored(a, k) == Stored(b, k)
  {
  }

  lemma MapsAgree<K, W>(x: map<K, W>, y: map<K, W>)
    requires x.Keys == y.Keys
    requires forall k :: k in x ==> x[k] == y[k]
    ensures x == y
  {
  }

  /** The registry a merge should produce: every key's sequences concatenated. */
  ghost function Appended<K(!new), V>(reg: TypeRegistry<K, V>, other: TypeRegistry<K, V>): TypeRegistry<K, V> {
    TypeRegistry(map k | k in reg.entries.Keys + other.entries.Keys :: Stored(reg, k) + Stored(other, k))
  }

  lemma AppendedNothing<K(!new), V>(reg: TypeRegistry<K, V>, other: TypeRegistry<K, V>)
    requires other.entries == map[]
    ensures Appended(reg, other) == reg
  {
    var y := Appended(reg, other).entries;
    forall k | k in y
      ensures y[k] == reg.entries[k]
    {
      assert Stored(other, k) == [];
      assert Stored(reg, k) + [] == Stored(reg, k);
    }
    MapsAgree(y, reg.entries);
  }

  /** Merging one key first and the rest after gives the same concatenations. */
  lemma AppendedStep<K(!new), V>(reg: TypeRegistry<K, V>, other: TypeRegistry<K, V>, key: K)
    requires key in other.entries
    ensures Appended(MergeEntry(reg, key, other.entries[key]), TypeRegistry(other.entries - {key})) == Appended(reg, other)
  {
    var step := MergeEntry(reg, key, other.entries[key]);
    var rest := TypeRegistry(other.entries - {key});
    MergeEntryAppends(reg, key, other.entries[key]);
    var x := Appended(step, rest).entries;
    var y := Appended(reg, other).entries;
    assert x.Keys == y.Keys;
    forall k | k in x
      ensures x[k] == y[k]
    {
      if k != key {
        StoredOfGet(step, reg, k);
        assert Stored(rest, k) == Stored(other, k);
      } else {
        assert Stored(rest, k) == [];
        assert x[k] == Stored(step, k) + [];
      }
    }
    MapsAgree(x, y);
  }

  lemma {:induction false} MergeIsAppended<K(!new), V>(reg: TypeRegistry<K, V>, other: TypeRegistry<K, V>)
    ensures Merge(reg, other) == Appended(reg, other)
    decreases |other.entries|
  {
    if other.entries == map[] {
      AppendedNothing(reg, other);
    } else {
      var key := MergeUnfolds(reg, other);
      MergeIsAppended(MergeEntry(reg, key, other.entries[key]), TypeRegistry(other.entries - {key}));
      AppendedStep(reg, other, key);
    }
  }

  /** After a merge, every key of `other` holds the old sequence followed by `other`'s, and
      every other key is untouched. */
  lemma MergeAppends<K(!new), V>(reg: TypeRegistry<K, V>, other: TypeRegistry<K, V>)
    ensures Merge(reg, other).entries.Keys == reg.entries.Keys + other.entries.Keys
    ensures forall k :: k in other.entries ==> Stored(Merge(reg, other), k) == Stored(reg, k) + other.entries[k]
    ensures forall k :: k !in other.entries ==> Get(Merge(reg, other), k) == Get(reg, k)
  {
    MergeIsAppended(reg, other);
    forall k | k !in other.entries
      ensures Get(Merge(reg, other), k) == Get(reg, k)
    {
      assert Stored(other, k) == [];
      if k in reg.entries {
        assert Stored(reg, k) + [] == reg.entries[k];
      }
    }
  }

  /** Merging a registry with no entries changes nothing. */
  lemma MergeEmpty<K(!new), V>(reg: TypeRegistry<K, V>)
    ensures Merge(reg, TypeRegistry(map[])) == reg
  {
  }

  // ---------------------------------------------------------------------------
  // FixtureContext
  // ---------------------------------------------------------------------------

  datatype Context<K, V> = Context(dictionary: TypeRegistry<K, V>)

  /** `getLast(type)`: the last recorded instance, undefined for an unknown type or an empty
      sequence (as `ArrayHelper.last` of `[]`). */
  function GetLast<K(!new), V>(ctx: Context<K, V>, key: K): (r: Option<V>)
    ensures r.Some? <==> Stored(ctx.dictionary, key) != []
    ensures r.Some? ==> var s := Stored(ctx.dictionary, key); r.value == s[|s| - 1]
  {
    match Get(ctx.dictionary, key)
    case None => None
    case Some(items) => if items == [] then None else Some(items[|items| - 1])
  }

  /** `count(type)`: 0 for an unknown type, otherwise the number of recorded instances. */
  function Count<K(!new), V>(ctx: Context<K, V>, key: K): (r: nat)
    ensures key !in ctx.dictionary.entries ==> r == 0
    ensures key in ctx.dictionary.entries ==> r == |ctx.dictionary.entries[key]|
  {
    match Get(ctx.dictionary, key)
    case None => 0
    case Some(items) => |items|
  }

  /** `merge(otherContext)` delegates to the registries. */
  ghost function MergeContext<K(!new), V>(ctx: Context<K, V>, other: Context<K, V>): (r: Context<K, V>)
    ensures forall k :: Count(r, k) == Count(ctx, k) + Count(other, k)
    ensures forall k :: Count(other, k) > 0 ==> GetLast(r, k) == GetLast(other, k)
    ensures forall k :: Count(other, k) == 0 ==> GetLast(r, k) == GetLast(ctx, k)
  {
    MergeAppends(ctx.dictionary, other.dictionary);
    Context(Merge(ctx.dictionary, other.dictionary))
  }

  /** A recorded sequence read back by `set` then `get` is the sequence stored. */
  lemma SetThenGet<K(!new), V>(reg: TypeRegistry<K, V>, key: K, instances: seq<V>)
    ensures Get(Set(reg, key, instances), key) == Some(instances)
    ensures Count(Context(Set(reg, key, instances)), key) == |instances|
  {
  }

  /** `getOrCreate` ignores its factory when the key is present: any two factories give the
      same registry and the same sequence. */
  lemma GetOrCreateIgnoresFactory<K(!new), V>(reg: TypeRegistry<K, V>, key: K, f: () -> seq<V>, g: () -> seq<V>)
    requires key in reg.entries
    ensures GetOrCreate(reg, key, f) == GetOrCreate(reg, key, g)
  {
  }

  /** Merging an empty context leaves every count unchanged. */
  lemma MergeEmptyKeepsCounts<K(!new), V>(ctx: Context<K, V>)
    ensures forall k :: Count(MergeContext(ctx, Context(TypeRegistry(map[]))), k) == Count(ctx, k)
  {
  }
}

=== FILE: metadata.dfy ===
/** Column, relation and entity descriptors as the schema catalog supplies them, and the
    catalog itself (`getMetadata` / `hasMetadata` of the data source). */
module Metadata {
  import opened Results

  /** A column's declared type: a type name, or a constructor such as `String`. */
  datatype ColumnType = Named(name: string) | Constructor

  /** `column.default`: absent, a function (computed by the database), or a static value. */
  datatype DefaultSpec<V> = NoDefault | DefaultFunction | Static(value: V)

  datatype Generation = NotGenerated | Increment | UuidGenerated | Rowid | Identity

  datatype Column<V> = Column(
    propertyName: string,
    databaseName: string,
    colType: ColumnType,
    isNullable: bool,
    isPrimary: bool,
    generation: Generation,
    default: DefaultSpec<V>,
    length: Option<string>,            // `column.length`; `None` is undefined
    enumValues: Option<seq<V>>,        // `column.enum`; `None` is undefined
    hasRelation: bool,                 // `column.relationMetadata` is set
    isCreateDate: bool,
    isUpdateDate: bool,
    isVersion: bool)

  datatype RelationKind = OneToOne | ManyToOne | OneToMany | ManyToMany

  datatype Relation = Relation(
    kind: RelationKind,
    propertyName: string,
    sourceTypeName: string,            // `relation.entityMetadata.name`
    targetTypeName: string,            // `relation.inverseEntityMetadata.name`
    isNullable: bool,
    isOwning: bool,
    inverseRelation: Option<string>,   // the property name of the inverse relation, if any
    inverseSidePropertyPath: string,
    joinColumnAliases: seq<string>)    // `propertyAliasName` of each join column

  /** A unique constraint, by the property names of its columns. */
  datatype UniqueMeta = UniqueMeta(columns: seq<string>)

  /** An index, by the property names of its columns. */
  datatype IndexMeta = IndexMeta(isUnique: bool, columns: seq<string>)

  datatype EntityMeta<V> = EntityMeta(
    name: string,
    columns: seq<Column<V>>,
    relations: seq<Relation>,
    uniques: seq<UniqueMeta>,
    indices: seq<IndexMeta>)

  /** The entity types a data source knows, by name. */
  type Catalog<V> = map<string, EntityMeta<V>>

  /** `dataSource.getMetadata(type)`, which throws for an unregistered type. */
  function GetMetadata<V>(catalog: Catalog<V>, typeName: string): (r: Result<EntityMeta<V>>)
    ensures r.Success? <==> typeName in catalog
    ensures r.Success? ==> r.value == catalog[typeName]
    ensures r.Failure? ==> r.error == UnregisteredType(typeName)
  {
    if typeName in catalog then Success(catalog[typeName]) else Failure(UnregisteredType(typeName))
  }

  predicate HasMetadata<V>(catalog: Catalog<V>, typeName: string) {
    typeName in catalog
  }
}

=== FILE: relation_helper.dfy ===
/** `FixtureRelationHelper`: the view of one relation of one instance that the relation
    policies work through, and the primitives that assign and append through it. */
module RelationHelper {
  import opened Results
  import opened Js
  import opened Text
  import opened Metadata

  datatype Helper = Helper(
    relationType: RelationKind,
    sourceTypeName: string,
    sourcePropertyName: string,
    isNullable: bool,
    targetPropertyName: string,
    targetTypeName: string,
    instance: Addr,
    providedValue: Value)

  /** The property on the target side that points back: the inverse relation's property
      when there is one, otherwise the declared inverse side path. */
  function TargetPropertyName(rel: Relation): string {
    match rel.inverseRelation
    case Some(p) => p
    case None => rel.inverseSidePropertyPath
  }

  /** The constructor: every field is read off the relation, the instance and the caller's
      overrides. */
  function NewHelper(instance: Addr, rel: Relation, provided: map<string, Value>): (h: Helper)
    ensures h.relationType == rel.kind && h.isNullable == rel.isNullable
    ensures h.sourceTypeName == rel.sourceTypeName && h.sourcePropertyName == rel.propertyName
    ensures h.targetTypeName == rel.targetTypeName
    ensures rel.inverseRelation.Some? ==> h.targetPropertyName == rel.inverseRelation.value
    ensures rel.inverseRelation.None? ==> h.targetPropertyName == rel.inverseSidePropertyPath
    ensures h.instance == instance && h.providedValue == Provided(provided, rel.propertyName)
  {
    Helper(rel.kind, rel.sourceTypeName, rel.propertyName, rel.isNullable,
           TargetPropertyName(rel), rel.targetTypeName, instance, Provided(provided, rel.propertyName))
  }

  /** `userProvidedValue()`: the caller supplied something other than `undefined`. */
  predicate UserProvidedValue(h: Helper) {
    h.providedValue != Undefined
  }

  /** The override test looks only at the relation's own property: `null` counts as
      provided, `undefined` (or no entry) does not. */
  lemma UserProvidedValueIffSet(instance: Addr, rel: Relation, provided: map<string, Value>)
    ensures UserProvidedValue(NewHelper(instance, rel, provided))
        <==> rel.propertyName in provided && provided[rel.propertyName] != Undefined
  {
  }

  /** `setInstanceProperty(value)`: only the relation's own property of the instance changes. */
  function SetInstanceProperty(heap: Heap, h: Helper, v: Value): (r: Heap)
    requires Valid(heap, h.instance)
    ensures SameExcept(heap, r, h.instance)
    ensures Lookup(r.objs[h.instance].props, h.sourcePropertyName) == v
    ensures forall k :: k != h.sourcePropertyName ==>
      Lookup(r.objs[h.instance].props, k) == Lookup(heap.objs[h.instance].props, k)
    ensures r.objs[h.instance].kind == heap.objs[h.instance].kind
    ensures r.objs[h.instance].elems == heap.objs[h.instance].elems
    ensures ObjsKept(heap, r)
  {
    SetField(heap, h.instance, h.sourcePropertyName, v)
  }

  /** The array a property refers to after an append, if it is one. */
  function ArrayAt(heap: Heap, v: Value): seq<Value> {
    if IsArray(heap, v) then heap.objs[v.addr].elems else []
  }

  /** `addValueToInstanceArray(value)`: a falsy property first becomes a fresh empty array;
      then the value is pushed, so it is last and the array is one longer. A truthy
      property that is not an array makes `push` throw. */
  function AddValueToInstanceArray(heap: Heap, h: Helper, v: Value): (r: Result<Heap>)
    requires Valid(heap, h.instance)
    ensures var cur := Lookup(heap.objs[h.instance].props, h.sourcePropertyName);
      r.Success? <==> !Truthy(cur) || IsArray(heap, cur)
    ensures r.Success? ==> OnlyArraysAdded(heap, r.value)
    ensures r.Success? ==>
      var cur := Lookup(heap.objs[h.instance].props, h.sourcePropertyName);
      var arr := Lookup(r.value.objs[h.instance].props, h.sourcePropertyName);
      && IsArray(r.value, arr)
      && ArrayAt(r.value, arr) == (if Truthy(cur) then ArrayAt(heap, cur) else []) + [v]
      && (Truthy(cur) ==> arr == cur)
      && (!Truthy(cur) ==> arr.addr == |heap.objs|)
    ensures r.Success? ==> forall b :: (0 <= b < |heap.objs| && b != h.instance &&
      b != Lookup(r.value.objs[h.instance].props, h.sourcePropertyName).addr) ==> r.value.objs[b] == heap.objs[b]
  {
    var cur := Lookup(heap.objs[h.instance].props, h.sourcePropertyName);
    if !Truthy(cur) then
      var (heap1, a) := NewArray(heap, []);
      var heap2 := SetField(heap1, h.instance, h.sourcePropertyName, Ref(a));
      Push(heap2, Ref(a), v)
    else
      Push(heap, cur, v)
  }

  /** `addThisInstanceToTheTargetSideArray(targetSide)`: nothing when there is no target
      property; otherwise the target's property becomes an array if it was falsy, and the
      instance is pushed onto it, without looking for an earlier copy. */
  function AddThisInstanceToTheTargetSideArray(heap: Heap, h: Helper, target: Value): (r: Result<Heap>)
    ensures h.targetPropertyName == [] ==> r == Success(heap)
    ensures h.targetPropertyName != [] ==>
      (r.Success? <==> (target.Ref? && Valid(heap, target.addr) &&
        var cur := Lookup(heap.objs[target.addr].props, h.targetPropertyName);
        !Truthy(cur) || IsArray(heap, cur)))
    ensures r.Success? ==> OnlyArraysAdded(heap, r.value)
    ensures h.targetPropertyName != [] && r.Success? ==>
      var cur := Lookup(heap.objs[target.addr].props, h.targetPropertyName);
      var arr := Lookup(r.value.objs[target.addr].props, h.targetPropertyName);
      && IsArray(r.value, arr)
      && ArrayAt(r.value, arr) == (if Truthy(cur) then ArrayAt(heap, cur) else []) + [Ref(h.instance)]
      && (Truthy(cur) ==> arr == cur)
      && (!Truthy(cur) ==> arr.addr == |heap.objs|)
    ensures r.Success? ==> PropsKeptExcept(heap, r.value, h.targetPropertyName)
    ensures r.Success? && h.targetPropertyName != [] ==> forall b :: (0 <= b < |heap.objs| && b != target.addr &&
      b != Lookup(r.value.objs[target.addr].props, h.targetPropertyName).addr) ==> r.value.objs[b] == heap.objs[b]
  {
    if h.targetPropertyName == [] then Success(heap)
    else
      var cur :- GetProp(heap, target, h.targetPropertyName);
      if !Truthy(cur) then
        var (heap1, a) := NewArray(heap, []);
        var heap2 :- SetProp(heap1, target, h.targetPropertyName, Ref(a));
        Push(heap2, Ref(a), Ref(h.instance))
      else
        Push(heap, cur, Ref(h.instance))
  }

  /** There is no duplicate check: an instance already on the target's array is pushed
      once more. */
  lemma TargetSideAppendRepeats(heap: Heap, h: Helper, target: Value)
    requires h.targetPropertyName != []
    requires target.Ref? && Valid(heap, target.addr)
    requires IsArray(heap, Lookup(heap.objs[target.addr].props, h.targetPropertyName))
    ensures AddThisInstanceToTheTargetSideArray(heap, h, target).Success?
    ensures var cur := Lookup(heap.objs[target.addr].props, h.targetPropertyName);
      var r := AddThisInstanceToTheTargetSideArray(heap, h, target).value;
      multiset(ArrayAt(r, cur))[Ref(h.instance)] == multiset(ArrayAt(heap, cur))[Ref(h.instance)] + 1
  {
    var cur := Lookup(heap.objs[target.addr].props, h.targetPropertyName);
    var r := AddThisInstanceToTheTargetSideArray(heap, h, target).value;
    assert ArrayAt(r, cur) == ArrayAt(heap, cur) + [Ref(h.instance)];
  }

  // ---------------------------------------------------------------------------
  // Diagnostics
  // ---------------------------------------------------------------------------

  /** The relation type as TypeORM spells it. */
  function KindName(k: RelationKind): string {
    match k
    case OneToOne => "one-to-one"
    case ManyToOne => "many-to-one"
    case OneToMany => "one-to-many"
    case ManyToMany => "many-to-many"
  }

  /** The part of a log line between the relation type and the outcome:
      `for <Source>.<property> -> <Target>.<property>`. */
  function Route(h: Helper): string {
    "for " + h.sourceTypeName + "." + h.sourcePropertyName + " -> " + h.targetTypeName + "." + h.targetPropertyName
  }

  /** `getLogMessage(suffix)`:
      `<RELATION TYPE> for <Source>.<property> -> <Target>.<property>: <suffix>`. */
  function GetLogMessage(h: Helper, suffix: string): (r: string)
    ensures |r| >= |suffix| + 2 && r[|r| - |suffix| - 2..] == ": " + suffix
  {
    (Upper(KindName(h.relationType)) + " ") + Route(h) + (": " + suffix)
  }

  /** Reads the relation type back from the head of a log line. */
  function KindOfLogMessage(msg: string): Option<RelationKind> {
    if |msg| >= 11 && msg[..11] == "ONE-TO-ONE " then Some(OneToOne)
    else if |msg| >= 12 && msg[..12] == "MANY-TO-ONE " then Some(ManyToOne)
    else if |msg| >= 12 && msg[..12] == "ONE-TO-MANY " then Some(OneToMany)
    else if |msg| >= 13 && msg[..13] == "MANY-TO-MANY " then Some(ManyToMany)
    else None
  }

  lemma UpperKindName(k: RelationKind)
    ensures Upper(KindName(k)) == match k
      case OneToOne => "ONE-TO-ONE"
      case ManyToOne => "MANY-TO-ONE"
      case OneToMany => "ONE-TO-MANY"
      case ManyToMany => "MANY-TO-MANY"
  {
  }

  /** Any text that starts with the upper-cased relation type and a space reads back as
      that type. */
  lemma KindOfHead(k: RelationKind, m: string)
    requires |m| >= |Upper(KindName(k))| + 1 && m[..|Upper(KindName(k))| + 1] == Upper(KindName(k)) + " "
    ensures KindOfLogMessage(m) == Some(k)
  {
    UpperKindName(k);
    match k
    case OneToOne =>
    case ManyToOne =>
      assert m[0] == m[..12][0] == 'M';
    case OneToMany =>
      assert m[..11][7] == m[..12][7] == 'M';
    case ManyToMany =>
      assert m[0] == m[..13][0] == 'M';
      assert m[..12][8] == m[..13][8] == 'M';
  }

  /** A log line names its relation type first, so the type can be read back, and ends
      with the outcome it reports. */
  lemma LogMessageRoundTrip(h: Helper, suffix: string)
    ensures KindOfLogMessage(GetLogMessage(h, suffix)) == Some(h.relationType)
    ensures var m := GetLogMessage(h, suffix);
      |m| >= |suffix| + 2 && m[|m| - |suffix| - 2..] == ": " + suffix
  {
    var m := GetLogMessage(h, suffix);
    var head := Upper(KindName(h.relationType)) + " ";
    var line := head + Route(h);
    assert m == line + (": " + suffix);
    assert m[..|head|] == line[..|head|] == head;
    KindOfHead(h.relationType, m);
  }
}

=== FILE: results.dfy ===
/** Optional values, the error taxonomy of the fixture engine, and a failure-compatible
    result type usable with `:-`. */
module Results {

  datatype Option<+T> = None | Some(value: T)

  /** Everything that makes a fixture operation throw. */
  datatype Error =
    | UnregisteredType(name: string)   // getMetadata of a type the catalog does not know
    | TypeError                        // a JavaScript TypeError (property of null, push on a non-array, ...)
    | DanglingReference                // a reference outside the heap; cannot arise from JavaScript itself
    | OutOfFuel                        // the recursion bound of the model was reached

  datatype Result<+T> = Success(value: T) | Failure(error: Error) {

    predicate IsFailure() {
      Failure?
    }

    function PropagateFailure<U>(): Result<U>
      requires Failure?
    {
      Failure(error)
    }

    function Extract(): T
      requires Success?
    {
      value
    }
  }
}

=== FILE: text.dfy ===
/** The string primitives of JavaScript the fixture engine relies on, restricted to what it
    uses: number rendering in a radix, `includes`, ASCII case mapping, `Number()` of a
    declared column length, `slice` and `substring`. */
module Text {
  import opened Results

  function Min(a: int, b: int): int { if a <= b then a else b }
  function Max(a: int, b: int): int { if a <= b then b else a }

  // ---------------------------------------------------------------------------
  // Digits and radix rendering (`n.toString(base)`)
  // ---------------------------------------------------------------------------

  /** The character JavaScript uses for digit `d`: `0`-`9`, then lower-case `a`-`z`. */
  function DigitChar(d: nat): char
    requires d < 36
  {
    if d < 10 then (48 + d) as char else (97 + d - 10) as char
  }

  /** The value of `c` read as a digit, or 36 when it is not one. */
  function DigitValue(c: char): (d: nat)
    ensures d <= 36
  {
    if '0' <= c <= '9' then c as int - '0' as int
    else if 'a' <= c <= 'z' then c as int - 'a' as int + 10
    else 36
  }

  predicate IsDigit(c: char, base: nat) {
    DigitValue(c) < base
  }

  predicate AllDigits(s: string, base: nat) {
    forall i :: 0 <= i < |s| ==> IsDigit(s[i], base)
  }

  /** `n.toString(base)` for a non-negative integer. */
  function Radix(n: nat, base: nat): (s: string)
    requires 2 <= base <= 36
    ensures |s| >= 1
    decreases n
  {
    if n < base then [DigitChar(n)] else Radix(n / base, base) + [DigitChar(n % base)]
  }

  lemma DigitRoundTrip(d: nat)
    requires d < 36
    ensures DigitValue(DigitChar(d)) == d
  {
  }

  /** Euclidean division by the base, stated once for the proofs below. */
  lemma DivMod(n: nat, base: nat)
    requires 2 <= base <= 36
    ensures 0 <= n % base < base
    ensures n / base <= n
    ensures n >= base ==> n / base < n
    ensures (n / base) * base + n % base == n
  {
    var q, r := n / base, n % base;
    assert q * base + r == n;
    MulMono(q, 2, base);
  }

  lemma MulMono(q: nat, a: nat, b: nat)
    requires a <= b
    ensures q * a <= q * b
  {
  }

  /** Every character of a rendering is a digit of its base. */
  lemma {:induction false} RadixDigits(n: nat, base: nat)
    requires 2 <= base <= 36
    ensures AllDigits(Radix(n, base), base)
    decreases n
  {
    DivMod(n, base);
    if n >= base {
      RadixDigits(n / base, base);
      DigitRoundTrip(n % base);
      var s := Radix(n, base);
      var init := Radix(n / base, base);
      assert s == init + [DigitChar(n % base)];
      forall i | 0 <= i < |s|
        ensures IsDigit(s[i], base)
      {
        if i < |init| {
          assert s[i] == init[i];
        }
      }
    } else {
      DigitRoundTrip(n);
    }
  }

  /** The value of a non-empty digit string, most significant digit first. */
  function ParseRadix(s: string, base: nat): nat
    requires 2 <= base <= 36
    requires AllDigits(s, base)
  {
    if s == [] then 0 else ParseRadix(s[..|s| - 1], base) * base + DigitValue(s[|s| - 1])
  }

  /** Reading back a rendered number gives the number. */
  lemma {:induction false} ParseRadixInvertsRadix(n: nat, base: nat)
    requires 2 <= base <= 36
    ensures AllDigits(Radix(n, base), base) && ParseRadix(Radix(n, base), base) == n
    decreases n
  {
    var s := Radix(n, base);
    RadixDigits(n, base);
    DivMod(n, base);
    if n >= base {
      ParseRadixInvertsRadix(n / base, base);
      assert s[..|s| - 1] == Radix(n / base, base);
      DigitRoundTrip(n % base);
      assert ParseRadix(s, base) == ParseRadix(Radix(n / base, base), base) * base + n % base;
    } else {
      DigitRoundTrip(n);
      assert s[..|s| - 1] == [];
    }
  }

  /** Distinct numbers render to distinct strings. */
  lemma RadixInjective(a: nat, b: nat, base: nat)
    requires 2 <= base <= 36
    requires Radix(a, base) == Radix(b, base)
    ensures a == b
  {
    ParseRadixInvertsRadix(a, base);
    ParseRadixInvertsRadix(b, base);
  }

  function Base36(n: nat): string { Radix(n, 36) }

  function Decimal(n: nat): string { Radix(n, 10) }

  /** Rendered numbers never contain a dash, so a dash before them delimits them. */
  lemma RadixHasNoDash(n: nat, base: nat)
    requires 2 <= base <= 36
    ensures '-' !in Radix(n, base)
  {
    var s := Radix(n, base);
    RadixDigits(n, base);
    forall i | 0 <= i < |s|
      ensures s[i] != '-'
    {
      assert IsDigit(s[i], base);
    }
  }

  // ---------------------------------------------------------------------------
  // Substring search (`s.includes(t)`)
  // ---------------------------------------------------------------------------

  /** `t` occurs in `s` starting at position `i`. */
  ghost predicate OccursAt(s: string, t: string, i: int) {
    0 <= i && i + |t| <= |s| && s[i..i + |t|] == t
  }

  /** `s.includes(t)`, computed by scanning from the left. */
  function Contains(s: string, t: string): bool
    decreases |s|
  {
    |t| <= |s| && (s[..|t|] == t || Contains(s[1..], t))
  }

  /** The scan finds `t` exactly when it occurs somewhere in `s`. */
  lemma {:induction false} ContainsIffOccurs(s: string, t: string)
    ensures Contains(s, t) <==> exists i :: OccursAt(s, t, i)
    decreases |s|
  {
    if |t| <= |s| && s[..|t|] != t {
      ContainsIffOccurs(s[1..], t);
      if Contains(s[1..], t) {
        var i :| OccursAt(s[1..], t, i);
        assert s[i + 1..i + 1 + |t|] == s[1..][i..i + |t|];
        assert OccursAt(s, t, i + 1);
      }
      if i :| OccursAt(s, t, i) {
        assert i != 0;
        assert s[1..][i - 1..i - 1 + |t|] == s[i..i + |t|];
        assert OccursAt(s[1..], t, i - 1);
      }
    } else if |t| <= |s| {
      assert OccursAt(s, t, 0);
    }
  }

  /** `names.some((x) => s.includes(x))` */
  function ContainsAny(s: string, names: seq<string>): (r: bool)
    ensures r <==> exists k :: 0 <= k < |names| && Contains(s, names[k])
  {
    if names == [] then false else Contains(s, names[0]) || ContainsAny(s, names[1..])
  }

  // ---------------------------------------------------------------------------
  // Case mapping (ASCII letters only)
  // ---------------------------------------------------------------------------

  function LowerChar(c: char): char {
    if 'A' <= c <= 'Z' then (c as int + 32) as char else c
  }

  function UpperChar(c: char): char {
    if 'a' <= c <= 'z' then (c as int - 32) as char else c
  }

  /** `s.toLowerCase()` */
  function Lower(s: string): (r: string)
    ensures |r| == |s|
  {
    seq(|s|, i requires 0 <= i < |s| => LowerChar(s[i]))
  }

  /** `s.toUpperCase()` */
  function Upper(s: string): (r: string)
    ensures |r| == |s|
  {
    seq(|s|, i requires 0 <= i < |s| => UpperChar(s[i]))
  }

  // ---------------------------------------------------------------------------
  // `Number(s)` for a declared column length
  // ---------------------------------------------------------------------------

  predicate IsSpace(c: char) {
    c == ' ' || c == '\t' || c == '\n' || c == '\r' || c == '\U{000B}' || c == '\U{000C}'
    || c == '\U{00A0}' || c == '\U{FEFF}'
  }

  function TrimStart(s: string): (r: string)
    ensures |r| <= |s|
    ensures r == s[|s| - |r|..]
    ensures r == [] || !IsSpace(r[0])
    decreases |s|
  {
    if s != [] && IsSpace(s[0]) then TrimStart(s[1..]) else s
  }

  function TrimEnd(s: string): (r: string)
    ensures |r| <= |s|
    ensures r == s[..|r|]
    ensures r == [] || !IsSpace(r[|r| - 1])
    decreases |s|
  {
    if s != [] && IsSpace(s[|s| - 1]) then TrimEnd(s[..|s| - 1]) else s
  }

  function Trim(s: string): string { TrimEnd(TrimStart(s)) }

  /** `Number(s)` on integer literals: surrounding white space is ignored, white space
      alone reads as 0, an optional sign precedes decimal digits; anything else is NaN
      (`None`). */
  function JsNumber(s: string): Option<int> {
    var t := Trim(s);
    if t == [] then Some(0)
    else if (t[0] == '-' || t[0] == '+') && |t| > 1 && AllDigits(t[1..], 10) then
      Some(if t[0] == '-' then 0 - ParseRadix(t[1..], 10) as int else ParseRadix(t[1..], 10))
    else if AllDigits(t, 10) then Some(ParseRadix(t, 10))
    else None
  }

  /** A decimal rendering reads back as the number it renders. */
  lemma JsNumberOfDecimal(n: nat)
    ensures JsNumber(Decimal(n)) == Some(n)
  {
    var s := Decimal(n);
    ParseRadixInvertsRadix(n, 10);
    RadixDigits(n, 10);
    assert IsDigit(s[0], 10) && IsDigit(s[|s| - 1], 10);
    assert TrimStart(s) == s;
    assert TrimEnd(s) == s;
    assert Trim(s) == s;
    assert s[0] != '-' && s[0] != '+';
  }

  // ---------------------------------------------------------------------------
  // `slice` and `substring`
  // ---------------------------------------------------------------------------

  /** `s.slice(start)`: a negative start counts from the end; both ends are clamped. */
  function SliceFrom(s: string, start: int): (r: string)
    ensures |r| <= |s|
    ensures r == s[|s| - |r|..]
  {
    if start < 0 then s[Max(|s| + start, 0)..] else s[Min(start, |s|)..]
  }

  /** `s.substring(0, end)`: a negative end reads as 0, a long one as `|s|`. */
  function Head(s: string, end: int): (r: string)
    ensures |r| == Max(0, Min(end, |s|))
    ensures r == s[..|r|]
  {
    if end <= 0 then [] else s[..Min(end, |s|)]
  }

  // ---------------------------------------------------------------------------
  // Reading a suffix back
  // ---------------------------------------------------------------------------

  /** What follows the last occurrence of `sep` (all of `s` when there is none). */
  function AfterLast(s: string, sep: char): string
    decreases |s|
  {
    if s == [] then []
    else if s[|s| - 1] == sep then []
    else AfterLast(s[..|s| - 1], sep) + [s[|s| - 1]]
  }

  /** A separator followed by separator-free text can be cut off again: the text after the
      last separator of `p + [sep] + d` is `d`, whatever `p` holds. */
  lemma {:induction false} AfterLastRecoversTail(p: string, sep: char, d: string)
    requires sep !in d
    ensures AfterLast(p + [sep] + d, sep) == d
    decreases |d|
  {
    var s := p + [sep] + d;
    if d != [] {
      assert d[|d| - 1] in d;
      assert s[..|s| - 1] == p + [sep] + d[..|d| - 1];
      var init := d[..|d| - 1];
      forall c | c in init
        ensures c != sep
      {
        var i :| 0 <= i < |init| && init[i] == c;
        assert d[i] in d;
      }
      AfterLastRecoversTail(p, sep, d[..|d| - 1]);
      assert d == d[..|d| - 1] + [d[|d| - 1]];
    } else {
      assert s[|s| - 1] == sep;
    }
  }
}

=== FILE: values.dfy ===
/** The JavaScript values the fixture engine reads and writes, and a heap of objects.

    Entity instances and arrays are heap objects, reached through `Ref`; everything else is
    a primitive. Arrays live in the heap (not inside values) so that two properties holding
    the same array see each other's pushes, as in JavaScript. `new Date(0)` and `{}` are
    represented only by the tags `EpochDate` and `EmptyJson`. */
module Js {
  import opened Results

  type Addr = nat

  datatype Value =
    | Undefined
    | Null
    | Num(n: int)
    | Bool(b: bool)
    | Str(s: string)
    | EpochDate
    | EmptyJson
    | Ref(addr: Addr)

  /** JavaScript truthiness: `undefined`, `null`, `0`, `false` and `""` are falsy. */
  predicate Truthy(v: Value) {
    match v
    case Undefined => false
    case Null => false
    case Num(n) => n != 0
    case Bool(b) => b
    case Str(s) => s != []
    case EpochDate => true
    case EmptyJson => true
    case Ref(_) => true
  }

  predicate Nullish(v: Value) {
    v.Undefined? || v.Null?
  }

  datatype ObjKind = Entity(typeName: string) | ArrayObj

  /** A heap object: its named properties and, for an array, its elements. */
  datatype Obj = Obj(kind: ObjKind, props: map<string, Value>, elems: seq<Value>)

  datatype Heap = Heap(objs: seq<Obj>)

  /** Reading a property that was never assigned gives `undefined`. */
  function Lookup(props: map<string, Value>, key: string): Value {
    if key in props then props[key] else Undefined
  }

  predicate Valid(h: Heap, a: Addr) {
    a < |h.objs|
  }

  /** `h` is `h0` with objects possibly added at the end and nothing else changed. */
  predicate Extends(h0: Heap, h: Heap) {
    |h0.objs| <= |h.objs| && h.objs[..|h0.objs|] == h0.objs
  }

  /** No object of `h0` is gone or has changed between entity and array, and every array
      of `h0` was only appended to; new objects may follow. Properties may have changed. */
  predicate ObjsKept(h0: Heap, h: Heap) {
    && |h0.objs| <= |h.objs|
    && forall b :: 0 <= b < |h0.objs| ==> h.objs[b].kind == h0.objs[b].kind && h0.objs[b].elems <= h.objs[b].elems
  }

  lemma ObjsKeptTrans(h0: Heap, h1: Heap, h2: Heap)
    requires ObjsKept(h0, h1) && ObjsKept(h1, h2)
    ensures ObjsKept(h0, h2)
  {
    forall b | 0 <= b < |h0.objs|
      ensures h0.objs[b].elems <= h2.objs[b].elems
    {
      var e0, e1, e2 := h0.objs[b].elems, h1.objs[b].elems, h2.objs[b].elems;
      assert e2[..|e0|] == e2[..|e1|][..|e0|];
    }
  }

  /** Every property other than `key`, of every object of `h0`, keeps its value in `h`. */
  ghost predicate PropsKeptExcept(h0: Heap, h: Heap, key: string) {
    && |h0.objs| <= |h.objs|
    && forall b, k :: 0 <= b < |h0.objs| && k != key ==> Lookup(h.objs[b].props, k) == Lookup(h0.objs[b].props, k)
  }

  lemma PropsKeptExceptTrans(h0: Heap, h1: Heap, h2: Heap, key: string)
    requires PropsKeptExcept(h0, h1, key) && PropsKeptExcept(h1, h2, key)
    ensures PropsKeptExcept(h0, h2, key)
  {
  }

  /** Every object added between `h0` and `h` is an array. */
  ghost predicate OnlyArraysAdded(h0: Heap, h: Heap) {
    ObjsKept(h0, h) && forall b :: |h0.objs| <= b < |h.objs| ==> h.objs[b].kind == ArrayObj
  }

  lemma OnlyArraysAddedTrans(h0: Heap, h1: Heap, h2: Heap)
    requires OnlyArraysAdded(h0, h1) && OnlyArraysAdded(h1, h2)
    ensures OnlyArraysAdded(h0, h2)
  {
  }

  /** Allocation of a fresh object at the first free address. */
  function Alloc(h: Heap, o: Obj): (r: (Heap, Addr))
    ensures Extends(h, r.0) && |r.0.objs| == |h.objs| + 1
    ensures r.1 == |h.objs| && r.0.objs[r.1] == o
  {
    (Heap(h.objs + [o]), |h.objs|)
  }

  /** A fresh array holding `items`. */
  function NewArray(h: Heap, items: seq<Value>): (r: (Heap, Addr))
    ensures Extends(h, r.0) && |r.0.objs| == |h.objs| + 1
    ensures r.1 == |h.objs| && r.0.objs[r.1] == Obj(ArrayObj, map[], items)
  {
    Alloc(h, Obj(ArrayObj, map[], items))
  }

  /** `h` and `h'` agree on every object except `a`. */
  predicate SameExcept(h: Heap, h': Heap, a: Addr) {
    |h.objs| == |h'.objs| && forall b :: 0 <= b < |h.objs| && b != a ==> h'.objs[b] == h.objs[b]
  }

  /** `obj[key] = v` on an object known to exist. */
  function SetField(h: Heap, a: Addr, key: string, v: Value): (h': Heap)
    requires Valid(h, a)
    ensures SameExcept(h, h', a)
    ensures h'.objs[a].kind == h.objs[a].kind && h'.objs[a].elems == h.objs[a].elems
    ensures Lookup(h'.objs[a].props, key) == v
    ensures forall k :: k != key ==> Lookup(h'.objs[a].props, k) == Lookup(h.objs[a].props, k)
  {
    var o := h.objs[a];
    Heap(h.objs[a := o.(props := o.props[key := v])])
  }

  /** `target[key]` (in strict mode): a TypeError on `undefined` and `null`; primitives
      carry no own properties the engine reads. */
  function GetProp(h: Heap, target: Value, key: string): (r: Result<Value>)
    ensures r.Failure? <==> Nullish(target) || (target.Ref? && !Valid(h, target.addr))
    ensures r.Success? && target.Ref? ==> r.value == Lookup(h.objs[target.addr].props, key)
  {
    match target
    case Undefined => Failure(TypeError)
    case Null => Failure(TypeError)
    case Ref(a) => if Valid(h, a) then Success(Lookup(h.objs[a].props, key)) else Failure(DanglingReference)
    case _ => Success(Undefined)
  }

  /** `target[key] = v` (in strict mode, where assigning to a primitive throws). */
  function SetProp(h: Heap, target: Value, key: string, v: Value): (r: Result<Heap>)
    ensures r.Success? <==> target.Ref? && Valid(h, target.addr)
    ensures r.Success? ==> r.value == SetField(h, target.addr, key, v)
  {
    match target
    case Ref(a) => if Valid(h, a) then Success(SetField(h, a, key, v)) else Failure(DanglingReference)
    case Undefined => Failure(TypeError)
    case Null => Failure(TypeError)
    case _ => Failure(TypeError)
  }

  predicate IsArray(h: Heap, v: Value) {
    v.Ref? && Valid(h, v.addr) && h.objs[v.addr].kind == ArrayObj
  }

  /** `arr.push(v)`: a TypeError unless `arr` is an array. */
  function Push(h: Heap, arr: Value, v: Value): (r: Result<Heap>)
    ensures r.Success? <==> IsArray(h, arr)
    ensures r.Success? ==> SameExcept(h, r.value, arr.addr)
    ensures r.Success? ==> r.value.objs[arr.addr] == h.objs[arr.addr].(elems := h.objs[arr.addr].elems + [v])
  {
    if IsArray(h, arr) then
      var o := h.objs[arr.addr];
      Success(Heap(h.objs[arr.addr := o.(elems := o.elems + [v])]))
    else if arr.Ref? && !Valid(h, arr.addr) then Failure(DanglingReference)
    else Failure(TypeError)
  }

  /** `arr.includes(v)`: a TypeError unless `arr` is an array. */
  function Includes(h: Heap, arr: Value, v: Value): (r: Result<bool>)
    ensures r.Success? <==> IsArray(h, arr)
    ensures r.Success? ==> (r.value <==> v in h.objs[arr.addr].elems)
  {
    if IsArray(h, arr) then Success(v in h.objs[arr.addr].elems)
    else if arr.Ref? && !Valid(h, arr.addr) then Failure(DanglingReference)
    else Failure(TypeError)
  }

  /** The elements a `for ... of` loop visits: an array's elements, a string's characters
      one by one, and a TypeError for anything else. */
  function Elements(h: Heap, v: Value): (r: Result<seq<Value>>)
    ensures r.Success? <==> IsArray(h, v) || v.Str?
    ensures r.Success? && v.Ref? ==> r.value == h.objs[v.addr].elems
    ensures r.Success? && v.Str? ==> |r.value| == |v.s| && forall i :: 0 <= i < |v.s| ==> r.value[i] == Str([v.s[i]])
  {
    if IsArray(h, v) then Success(h.objs[v.addr].elems)
    else if v.Str? then Success(seq(|v.s|, i requires 0 <= i < |v.s| => Str([v.s[i]])))
    else if v.Ref? && !Valid(h, v.addr) then Failure(DanglingReference)
    else Failure(TypeError)
  }

  /** `provided[key]` of a `Partial<T>` of overrides. */
  function Provided(provided: map<string, Value>, key: string): Value {
    Lookup(provided, key)
  }
}
